=== FILE: README.md ===
# EpsilonDashboard, modelled in Dafny

EpsilonDashboard watches the comments on a YouTube channel and can answer
them automatically. This project models the core of that system:

- The comment-processing service.
  - It classifies a comment through a language model.
  - It decides whether the comment gets an automatic reply and picks the tone of the reply prompt.
  - It stores at most one record per comment id, and never one with an empty id.
  - It counts the classifier's answers.
  - It runs over every recent comment in a monitoring cycle, which can be switched on and off.
- The selection of recent comments from the channel's uploads.
- The dashboard routes: the overview, the sentiment analytics, the auto-reply switch and status, the manual trigger and the usage counter.
- The browser-side helpers of the comment list.

Every call to the outside world is an input of the model:

- the video platform's listings (`Youtube.Platform`);
- the classifier's and reply generator's answers;
- whether a reply is posted;
- whether each database call succeeds (`Pipeline.CommentWorld`);
- the clock (`now`);
- the environment settings, with an unset variable read as `""`.

Everything else is pure functions over immutable data. The record store is a
`map` from comment id to record, and the usage counter is a `map` from
document id to count.

Modules, one per component:

| module | file | models |
|---|---|---|
| `Results` | results.dfy | `Option` and `Result` |
| `ApiCounter` | api_counter.dfy | models/ApiCounter.js and the counter increment |
| `Sentiment` | sentiment.dfy | the reply policy, the prompt tone, the classifier and generator clients |
| `CommentRecord` | comment_record.dfy | models/CommentRecord.js: the record and its unique id |
| `Youtube` | youtube.dfy | services/youtubeService.js: the video and comment mappings, the recent-comment selection |
| `Pipeline` | pipeline.dfy | `processComment` and `monitorComments` |
| `Monitoring` | monitoring.dfy | `startMonitoring` and `stopMonitoring` |
| `Dashboard` | dashboard.dfy | routes/dashboard.js |
| `Client` | client.dfy | the comment-list helpers of public/script.js |

Behaviours of the code that the model keeps as written:

- Stopping monitoring clears the flag but cancels no scheduled job.
  - A start, a stop and another start leave two jobs.
  - Every tick then runs the cycle twice (`Monitoring.RestartDoublesRuns`).
- After a reply is posted, its record insert can fail.
  - The error handler then tries a second insert, of a record that says "not replied"; at most one record for the comment ever exists.
  - This happens although the reply is public (`Pipeline.PostedButRecordedUnreplied`).
- A negative comment with toxicity exactly 0.7 is neither answered nor de-escalated.
  - The policy needs toxicity below 0.7.
  - The de-escalating prompt needs toxicity above 0.7.
- The overview counts a stored label outside positive, negative and neutral under a key of its own.
  - That key holds NaN, so those comments are missing from the three counters (`SentimentCounts.strays`).
- The analytics route fails on such a label.
  - The exception is the label "timeline": the enriched comment itself is pushed onto the timeline (`TimelineEntry.Misfiled`).
- The auto-reply toggle tests `enabled` for JavaScript truthiness, so the string "false" turns monitoring on.
- Starting registers the scheduled job before it sets the flag.
  - When the scheduler rejects the cron expression (say, an interval setting of "abc"), the start throws with the flag still off and no job registered.
  - The toggle route then answers with status 500.
- A comment with an empty id is classified, and counted when the classifier answers, but its record fails the schema's validation, so it is never stored (`Pipeline.EmptyIdNeverRecorded`).
- The sentiment threshold setting is read but never used in the reply decision.

## Model

| member | source | states |
|---|---|---|
| `ApiCounter.CallCount` | routes/dashboard.js:149-150 | the reported usage is the fixed document's count, or 0 when that document does not exist |
| `ApiCounter.Increment` | services/sentimentService.js:17-27 | a successful upserted increment raises the count by exactly one and touches no other document; a failed one changes nothing |
| `ApiCounter.IncrementMonotone` | services/sentimentService.js:17-27 | an increment never lowers the count and raises it by at most one |
| `ApiCounter.FirstIncrementCreates` | services/sentimentService.js:19-23 | an absent counter document is created with count 1 |
| `Sentiment.ShouldAutoReply` | services/sentimentService.js:224-232 | a reply is wanted exactly for positive with confidence above 0.6, negative with toxicity below 0.7, or neutral |
| `Sentiment.ThresholdIgnored` | services/sentimentService.js:225-231 | the threshold setting never changes the decision |
| `Sentiment.OtherLabelsNeverReply` | services/sentimentService.js:227-231 | a label other than the three is never answered |
| `Sentiment.ToneFor` | services/sentimentService.js:89-100 | positive gets the appreciative tone, negative above 0.7 toxicity the de-escalating one, other negative the helpful one, anything else the friendly one, each as an if-and-only-if |
| `Sentiment.AnsweredNeverDeescalated` | services/sentimentService.js:94-96 | a comment the policy answers never gets the de-escalating prompt; negative at exactly 0.7 gets no reply and the helpful tone |
| `Sentiment.ReplyPrompt` | services/sentimentService.js:87-102 | the prompt starts with the tone's instruction, continues with the comment text between double quotes, and always ends with the 200-character instruction |
| `Sentiment.ReplyPromptDetermines` | services/sentimentService.js:89-102 | two equal prompts ask for the same tone about the same text |
| `Sentiment.AnalyzeSentiment` | services/sentimentService.js:29-83 | classification never fails: a parsed answer is returned as is, anything else gives the neutral 0.5 "Analysis failed" result; the counter grows by one exactly for an OK answer, parsed or not, whose counter update succeeds (a failed update is swallowed) |
| `Sentiment.GenerateReply` | services/sentimentService.js:85-131 | the reply is never empty: the generated text when there is some, else the fixed thank-you text |
| `CommentRecord.FromDraft` | models/CommentRecord.js:3-15 | a stored record keeps the declared fields, `replied` defaulting to false and `createdAt` set to the insertion time |
| `CommentRecord.Create` | models/CommentRecord.js:4 | an empty id fails the required-field validation; otherwise an insert succeeds exactly when the database call succeeds and no record has the id, and it then adds the built record under that id |
| `CommentRecord.CreateNeverStoresEmptyId` | models/CommentRecord.js:4 | no record is ever stored under the empty id |
| `CommentRecord.CreateAddsOne` | models/CommentRecord.js:4 | a successful insert adds exactly one key, keeps every record under its own id and leaves the others untouched |
| `CommentRecord.SecondCreateRefused` | models/CommentRecord.js:4 | once an id has a record, every later insert for it fails with the duplicate-key error |
| `Youtube.GetVideos` | services/youtubeService.js:32-60 | the first `maxResults` uploads in order, each keeping its id, title, description, thumbnail, publication time and comment status, with a missing view, like or comment count read as 0; fails exactly when the channel or listing fails |
| `Youtube.ToReply` | services/youtubeService.js:73-81 | a reply keeps its id and every field of its snippet |
| `Youtube.ToComment` | services/youtubeService.js:71-94 | a thread becomes its top-level comment: the thread id, every field of the top-level snippet (text, author, profile image, time, likes), the reply total or 0, and the given replies each mapped field by field in order, or none |
| `Youtube.GetVideoComments` | services/youtubeService.js:62-97 | the first `maxResults` threads, each mapped to its top-level comment, in order |
| `Youtube.Annotate` | services/youtubeService.js:116-120 | the comment gains its video's id and title and nothing else changes |
| `Youtube.RecentOf` | services/youtubeService.js:112-120 | a video keeps at most its listed threads, each published after the cutoff and annotated with the video; membership is stated by `Youtube.RecentOfMember` |
| `Youtube.RecentOfMember` | services/youtubeService.js:112-120 | a comment is kept for a video exactly when it is one of the video's threads published strictly after the cutoff, annotated with the video |
| `Youtube.Contribution` | services/youtubeService.js:104-123 | one video contributes at most 50 comments |
| `Youtube.ContributionMember` | services/youtubeService.js:104-123 | a disabled video, one with no comments and one whose listing fails contribute nothing; otherwise exactly its recent threads |
| `Youtube.CollectAppend` | services/youtubeService.js:104-124 | the per-video contributions are concatenated in video order, so a failing video only drops its own comments |
| `Youtube.CollectBound` | services/youtubeService.js:100-124 | at most 50 comments per examined video are collected |
| `Youtube.CollectMember` | services/youtubeService.js:104-124 | a comment is collected exactly when it is a candidate of one of the examined videos |
| `Youtube.Collect` | services/youtubeService.js:104-124 | every collected comment was published after the cutoff and carries its video; the contents are stated by `Youtube.CollectMember` and `Youtube.CollectAppend` |
| `Youtube.InsertByTimeFacts` | services/youtubeService.js:126-128 | inserting into a newest-first list keeps it newest first and adds exactly the one element |
| `Youtube.SortNewestFirst` | services/youtubeService.js:126-128 | the sort keeps the length; order and permutation are stated by `Youtube.SortNewestFirstFacts`, stability by `Youtube.SortNewestFirstStable` |
| `Youtube.SortNewestFirstFacts` | services/youtubeService.js:126-128 | the sort yields a newest-first permutation of its input |
| `Youtube.SortNewestFirstStable` | services/youtubeService.js:126-128 | comments published at the same time keep their relative order |
| `Youtube.RecentComments` | services/youtubeService.js:99-129 | the selection fails exactly when listing the first ten uploads fails |
| `Youtube.RecentCommentsOrder` | services/youtubeService.js:99-128 | the selection is newest first, a stable permutation of the per-video survivors, and at most 500 long |
| `Youtube.RecentCommentsMembers` | services/youtubeService.js:100-120 | a comment is selected exactly when it is a thread of an eligible scanned video published strictly after the cutoff, annotated with that video |
| `Youtube.RecentCommentIsRecent` | services/youtubeService.js:101-114 | every selected comment was published strictly after now minus the window |
| `Pipeline.ProcessComment` | services/sentimentService.js:134-222 | an existing record or a failed lookup means null and no write; otherwise the result is non-null exactly when one new record was inserted, which happens exactly when the id is valid and the insert of the branch taken succeeds; `replied` is true only when the policy, the setting and the post all agreed, and then the reply is reported; the counter grows by one exactly for an OK answer of the classifier whose counter update succeeds |
| `Pipeline.Insert` | services/sentimentService.js:169-208 | one insert for an unrecorded comment: on success the store gains exactly the built record and the result is reported; on failure, an empty id included, the store is unchanged and the result is null |
| `Pipeline.RecordUnreplied` | services/sentimentService.js:185-196 | the record written by the reply's error handler says not replied, and no reply is reported |
| `Pipeline.ProcessCommentKeyed` | services/sentimentService.js:169-208 | processing keeps every record under its own id |
| `Pipeline.RepliedWhenAllAgree` | services/sentimentService.js:159-183 | when the id is valid, the policy and the setting call for a reply, the post succeeds and its insert is accepted, the record says replied at the current time and the posted reply is reported |
| `Pipeline.PostedButRecordedUnreplied` | services/sentimentService.js:166-198 | a posted reply whose record insert fails ends up stored as not replied, with no reply reported |
| `Pipeline.CeilingNegativeNotReplied` | services/sentimentService.js:152-208 | a negative comment at toxicity 0.7 is stored unreplied even when every call succeeds |
| `Pipeline.EmptyIdNeverRecorded` | services/sentimentService.js:138-220 | a comment with an empty id is classified and counted like any other but never recorded, and its result is null |
| `Pipeline.ProcessAll` | services/sentimentService.js:254-259 | the loop reports at most one result per comment; what it reports and writes is stated by the `ProcessAll...` lemmas below |
| `Pipeline.ProcessAllPreserves` | services/sentimentService.js:254-259 | the cycle's loop keeps every record under its id and never changes an existing record |
| `Pipeline.ProcessAllKeys` | services/sentimentService.js:254-259 | the ids the loop adds are exactly those of the comments whose processing persists |
| `Pipeline.ProcessAllSize` | services/sentimentService.js:254-259 | the store grows by exactly one record per reported result |
| `Pipeline.ProcessAllInOrder` | services/sentimentService.js:254-259 | the reported results follow the order of the input comments |
| `Pipeline.ProcessAllCalls` | services/sentimentService.js:254-259 | the usage counter never drops and grows by at most one per comment |
| `Pipeline.Classified` | services/sentimentService.js:138-147 | the comments the loop sends to the classifier are comments of the input that had no record before the loop, at most one per comment |
| `Pipeline.ClassifiedBoundsCalls` | services/sentimentService.js:254-259 | the usage counter grows by at most the number of comments sent to the classifier |
| `Pipeline.AllRecordedUnchanged` | services/sentimentService.js:138-144 | when every comment already has a record, the loop changes nothing whatever the outside world answers: no result, no record, no counter increment and no comment sent to the classifier |
| `Pipeline.ProcessAllNothingNew` | services/sentimentService.js:138-144 | when every comment that would persist already has a record, the loop reports nothing and inserts no record; the usage counter may still grow for comments that are classified and fail to persist again |
| `Pipeline.RerunAddsNothing` | services/sentimentService.js:254-259 | running the loop again over the same comments, with the outside world answering as before, reports nothing and inserts no record; only the comments the first run failed to record are sent to the classifier again, and when it recorded them all the second run changes nothing at all |
| `Pipeline.MonitorCommentsOutcome` | services/sentimentService.js:234-265 | no result list exactly when the fetch fails or finds nothing, and then no write; otherwise the new ids are exactly those of the recent comments that persist, one new record per result, old records untouched, the results in the order of the recent comments, each a previously unrecorded comment of the last hour |
| `Pipeline.MonitorComments` | services/sentimentService.js:234-265 | without a result list nothing is written; a result list comes only from a non-empty fetch and is no longer than it; the rest is stated by `Pipeline.MonitorCommentsOutcome` |
| `Pipeline.ResultInRun` | services/sentimentService.js:255-258 | each reported result is about an input comment that had no record before and has one after |
| `Pipeline.RecordsOnlyGrow` | services/sentimentService.js:255-258 | the loop never removes a record |
| `Monitoring.IntervalSetting` | services/sentimentService.js:273 | the interval defaults to 30 minutes |
| `Monitoring.Start` | services/sentimentService.js:267-281 | while monitoring, starting succeeds and changes nothing; otherwise it throws exactly when the scheduler rejects the cron expression, and a start that succeeds registers exactly one more job, for that expression, and sets the flag |
| `Monitoring.AfterStart` | services/sentimentService.js:267-281 | after a start, thrown or not, the jobs are the old ones plus at most one, and the flag is on exactly when it was on or the expression is accepted |
| `Monitoring.RejectedStartChangesNothing` | services/sentimentService.js:273-279 | a start whose expression the scheduler rejects leaves the flag off and registers no job |
| `Monitoring.Stop` | services/sentimentService.js:283-286 | stopping clears the flag and keeps every job |
| `Monitoring.StartIdempotent` | services/sentimentService.js:268-271 | starting twice is starting once, whether or not the first start threw |
| `Monitoring.StopKeepsJobs` | services/sentimentService.js:283-286 | stopping does not reduce the runs per tick |
| `Monitoring.RestartDoublesRuns` | services/sentimentService.js:267-286 | with an accepted interval, start, stop, start leaves monitoring on with two jobs; with a rejected one nothing is ever registered |
| `Monitoring.ApplyFacts` | services/sentimentService.js:267-286 | over any command sequence jobs are never removed, at most one is added per start, and the flag on implies at least one job |
| `Dashboard.ReduceIsTotal` | routes/dashboard.js:17-19 | the left-fold `reduce` equals the sum over the videos |
| `Dashboard.TotalAppend` | routes/dashboard.js:17-19 | totals add up over any split of the video list |
| `Dashboard.Reduce` | routes/dashboard.js:17-19 | the fold never ends below its start value; its exact value is stated by `Dashboard.ReduceIsTotal` |
| `Dashboard.TallyCounts` | routes/dashboard.js:21-30 | each counter is the number of sampled comments in its bucket, a comment without a record counting as neutral; other labels become stray keys |
| `Dashboard.BucketsPartition` | routes/dashboard.js:21-30 | the three buckets and the strays partition the sample; no strays exactly when every label is one of the three |
| `Dashboard.Tally` | routes/dashboard.js:21-30 | the counters only grow, by at most one per comment in total, and stray keys only accumulate; the exact counts are stated by `Dashboard.TallyCounts` |
| `Dashboard.GetOverview` | routes/dashboard.js:9-48 | fails exactly when a fetch fails; totals are sums over the ten videos, the breakdown covers the first min(20, n) comments, the count is the full count, and the first 5 videos and 10 comments are listed |
| `Dashboard.AnalyticsHours` | routes/dashboard.js:53 | the window is 168 hours when the query is missing, unparseable or 0 |
| `Dashboard.Enrich` | routes/dashboard.js:68-81 | the enriched comment carries the comment's id, text and time, the stored label and confidence, and "Unknown" for a missing author |
| `Dashboard.FileUnder` | routes/dashboard.js:83 | filing succeeds exactly for a label naming a list of the response |
| `Dashboard.GatherFails` | routes/dashboard.js:63-89 | the loop fails exactly when a recorded comment has a label naming no list of the response |
| `Dashboard.GatherFiles` | routes/dashboard.js:63-89 | when it succeeds, each recorded comment is filed under its label in order, and the timeline gets one point per recorded comment |
| `Dashboard.Gather` | routes/dashboard.js:63-89 | on success the timeline gains at least one entry per recorded comment; exactly when it fails and what it files are stated by `Dashboard.GatherFails` and `Dashboard.GatherFiles` |
| `Dashboard.AnalyticsPartition` | routes/dashboard.js:63-89 | with only the three labels, each recorded comment lands in exactly one bucket |
| `Dashboard.AnalyticsTimeline` | routes/dashboard.js:85-88 | with only the three labels, the timeline holds one point per recorded comment, with its label and time, in order |
| `Dashboard.SentimentAnalytics` | routes/dashboard.js:51-96 | the route fails exactly when the fetch fails or a recorded label cannot be filed; otherwise the buckets and the timeline are those of the first 100 comments |
| `Dashboard.Toggle` | routes/dashboard.js:100-119 | a truthy `enabled` starts monitoring and anything else stops it, and the reply echoes `enabled`; a start that throws answers with the error (status 500) and leaves the monitor unchanged |
| `Dashboard.GetStatus` | routes/dashboard.js:122-129 | `enabled` is the auto-reply setting being exactly "true"; the interval and threshold default to 30 and 0.3 |
| `Dashboard.ToggleLeavesEnabled` | routes/dashboard.js:100-128 | the toggle never changes the reported `enabled`; when it answers normally, monitoring follows the truthiness of the value, so "false" turns it on; a failed toggle leaves the status as it was |
| `Dashboard.GeminiUsage` | routes/dashboard.js:147-155 | the usage is the fixed document's count, 0 when it is absent; the route fails only when the lookup does |
| `Dashboard.UsageAfterCycle` | routes/dashboard.js:147-155 | after a monitoring cycle the usage has not dropped and has grown by at most one per recent comment |
| `Dashboard.Trigger` | routes/dashboard.js:132-144 | the trigger always succeeds and reports exactly the cycle's results and their number, an empty list and 0 when the cycle gives none |
| `Dashboard.SecondTriggerProcessesNothing` | routes/dashboard.js:132-144 | a second trigger over the same platform, with the outside world answering as before, processes nothing |
| `Client.TruncateText` | public/script.js:498-501 | text that fits is kept; longer text keeps its first `maxLength` characters followed by "..." |
| `Client.TruncateBounded` | public/script.js:498-501 | shortened text is at most three characters over the limit and over the original |
| `Client.TruncateIdempotent` | public/script.js:498-501 | shortening shortened text with the same limit changes nothing |
| `Client.SentimentEmoji` | public/script.js:481-487 | positive gets the smile, negative the frown, anything else the straight face |
| `Client.EmojiSeparatesPolarity` | public/script.js:481-487 | two labels get the same emoji exactly when they agree on being positive and on being negative |
| `Client.AnalyzeOne` | public/script.js:235-249 | a comment keeps all its fields and gets the analysis when the request succeeds, none when it fails |
| `Client.DisplayClass` | public/script.js:210 | a listed comment's class is its label, or "neutral" without an analysis or label |
| `Client.AnalyzeInBatches` | public/script.js:232-261 | the result has the input's length and order, each comment analysed on its own, with ceil(n / batchSize) - 1 pauses |
| `Client.LoadComments` | public/script.js:190-230 | a failed fetch and an empty window are reported; otherwise the first min(20, n) comments are analysed and listed in order |

## Left out

- Network calls to the language model and the video platform are inputs of the model, not modelled calls. So are the JSON parsing of the model's answer, the fence-stripping regex and `parseInt`/`parseFloat` of query and settings values.
- Date formatting with moment (`publishedAtFormatted`) is left out. Timestamps are integers in milliseconds, and `isAfter` is a strict `>`.
- Logging, the DOM rendering of public/script.js, `formatNumber` and the analytics page's percentages are left out.
- The clock is read once per monitoring cycle (`Config.now`). The source reads it again for the cutoff, for each record's `createdAt` and for each `repliedAt`, so in the source these times can differ slightly within one cycle. No contract here depends on their being equal.
- Cron timing and the `setTimeout` pause are left out. A scheduled job is a string in a list, and `Client.AnalyzeInBatches` counts the pauses instead of waiting.
- Concurrency is left out:
  - the `Promise.all` in the overview and in the batch analysis is sequential here;
  - two overlapping monitoring runs racing on one insert are not modelled;
  - the store is sequential, with an insert that fails when the key exists.
- server.js, routes/auth.js, the config files and routes/youtube.js are not part of this model. The bulk-analysis loop in routes/youtube.js is the same fold as `monitorComments`.
- Which cron expressions the scheduler accepts is an input (`accepts` in `Monitoring.Start`). The scheduler's expression grammar is not modelled.
- The outside world answers per comment id (`Pipeline.CommentWorld`), so two comments with the same id in one recent list get the same classifier, generator and post answers. This is harmless, since the second finds the first one's record.
- `replyToComment` is an input (`CommentWorld.post`). Its lack of credentials is just a post that fails.
- Dashboard.GetOverview: the three fetches of the overview run against one platform snapshot. Separate answers for the two `getVideos` calls inside it are not modelled.
- Dashboard.GetOverview and Dashboard.SentimentAnalytics: a record lookup that fails inside their loops (a 500 from the route) is not modelled. The store is always readable there.
- JavaScript's NaN is left out:
  - a stored confidence or toxicity that is missing compares false in the source, and here every sentiment has both numbers;
  - the NaN counter itself is represented only by its key in `strays`.
- Labels that name a property of every JavaScript object ("constructor", "__proto__", ...) are treated like any other unknown label.
- Client.TruncateText: lengths are counted in characters, not UTF-16 code units.
- Client.AnalyzeInBatches requires a batch size of at least one. With 0 the source never advances and loops forever, and a negative size moves backwards. The only caller passes 5.
- Client.AnalyzeOne: an error body that the analysis route returns as JSON is attached as if it were an analysis. Here any answer that is not an analysis is a failed request.
- Pipeline.ProcessComment: the values passed to `create` that the schema does not declare (text, author, reply text, error message) are not stored, following the schema.
- Dashboard.GetStatus: the source's defaults for the interval and the threshold are the numbers 30 and 0.3; here they are their decimal strings, like every other setting.
- Youtube.RecentComments: its contract states only when the selection fails. What it selects is stated in `Youtube.RecentCommentsOrder` and `Youtube.RecentCommentsMembers`.
- Youtube.Contribution: its contract states only the bound. Its contents are stated in `Youtube.ContributionMember`.

=== FILE: api_counter.dfy ===
/** The classifier usage counter: a collection of counter documents keyed by
    their id, of which only the one with the fixed id is ever touched. */
module ApiCounter {

  /** The fixed document id every increment and read goes through. */
  const SentimentCounterId := "geminiSentimentApi"

  /** The counter collection: document id to `count`. */
  type Counters = map<string, nat>

  /** The number reported by the usage endpoint: the stored count, or 0 when the
      document has never been created (which is also the schema's default). */
  function CallCount(cs: Counters): (n: nat)
    ensures SentimentCounterId !in cs ==> n == 0
    ensures SentimentCounterId in cs ==> n == cs[SentimentCounterId]
  {
    if SentimentCounterId in cs then cs[SentimentCounterId] else 0
  }

  /** An upserted `$inc` of 1 on the fixed document. When the database call
      fails (`ok` false) the failure is swallowed and nothing changes. */
  function Increment(cs: Counters, ok: bool): (r: Counters)
    ensures ok ==> CallCount(r) == CallCount(cs) + 1
    ensures !ok ==> r == cs
    ensures ok ==> r.Keys == cs.Keys + {SentimentCounterId}
    ensures forall k :: k in cs && k != SentimentCounterId ==> k in r && r[k] == cs[k]
  {
    if ok then cs[SentimentCounterId := CallCount(cs) + 1] else cs
  }

  /** Increments never lower the reported count. */
  lemma IncrementMonotone(cs: Counters, ok: bool)
    ensures CallCount(cs) <= CallCount(Increment(cs, ok)) <= CallCount(cs) + 1
  {
  }

  /** An absent document becomes one whose count is exactly 1. */
  lemma FirstIncrementCreates(cs: Counters)
    requires SentimentCounterId !in cs
    ensures SentimentCounterId in Increment(cs, true)
    ensures Increment(cs, true)[SentimentCounterId] == 1
  {
  }
}

=== FILE: client.dfy ===
/** The browser side of the dashboard's comment list: the recent comments are
    fetched, the first twenty are sent for analysis a few at a time, and each is
    shown with a label class, an emoji and shortened text. */
module Client {
  import opened Results
  import opened Sentiment
  import opened Youtube

  /** Only this many of the fetched comments are analysed on a load. */
  const AnalyzedOnLoad := 20
  /** Comments analysed per batch unless told otherwise. */
  const DefaultBatchSize := 5
  /** Marker appended to shortened text. */
  const Ellipsis := "..."

  /** The larger of `x` and zero. */
  function Clamp(x: int): (r: nat)
    ensures x >= 0 ==> r == x
    ensures x < 0 ==> r == 0
  {
    if x < 0 then 0 else x
  }

  /** `truncateText`: text no longer than `maxLength` is kept whole; longer text
      keeps its first `maxLength` characters (none for a negative limit, as
      `substring` clamps) followed by the ellipsis. */
  function TruncateText(text: string, maxLength: int): (r: string)
    ensures |text| <= maxLength ==> r == text
    ensures |text| > maxLength ==>
      |r| == Clamp(maxLength) + |Ellipsis| && r[..Clamp(maxLength)] == text[..Clamp(maxLength)]
      && r[Clamp(maxLength)..] == Ellipsis
  {
    if |text| <= maxLength then text else text[..Clamp(maxLength)] + Ellipsis
  }

  /** Shown text is never more than the ellipsis longer than the limit, nor
      longer than the original plus the ellipsis. */
  lemma TruncateBounded(text: string, maxLength: int)
    ensures var r := TruncateText(text, maxLength);
      |r| <= Clamp(maxLength) + |Ellipsis| || r == text
    ensures |TruncateText(text, maxLength)| <= |text| + |Ellipsis|
  {
  }

  /** Shortening shortened text with the same limit changes nothing: the first
      `maxLength` characters are the same ones and the ellipsis is appended
      again in the same place. */
  lemma TruncateIdempotent(text: string, maxLength: int)
    ensures TruncateText(TruncateText(text, maxLength), maxLength) == TruncateText(text, maxLength)
  {
    var r := TruncateText(text, maxLength);
    if |text| > maxLength {
      var m := Clamp(maxLength);
      assert |r| > maxLength;
      assert r[..m] == text[..m];
    }
  }

  /** `getSentimentEmoji`: a smile for "positive", a frown for "negative", a
      straight face for anything else. */
  function SentimentEmoji(category: string): (e: string)
    ensures LabelOf(category) == Positive <==> e == "\U{1F60A}"
    ensures LabelOf(category) == Negative <==> e == "\U{1F61E}"
    ensures e in {"\U{1F60A}", "\U{1F61E}", "\U{1F610}"}
  {
    match LabelOf(category)
    case Positive => "\U{1F60A}"
    case Negative => "\U{1F61E}"
    case _ => "\U{1F610}"
  }

  /** The emoji tells positive and negative apart from everything else, but
      puts "neutral" and every unknown label under the same face. */
  lemma EmojiSeparatesPolarity(a: string, b: string)
    ensures SentimentEmoji(a) == SentimentEmoji(b) <==>
      (a == PositiveName <==> b == PositiveName) && (a == NegativeName <==> b == NegativeName)
  {
    LabelNameOfLabelOf(a);
    LabelNameOfLabelOf(b);
  }

  /** A comment as the page holds it: the fetched comment, and the analysis
      attached to it when the analysis request succeeded. */
  datatype ClientComment = ClientComment(comment: Comment, sentiment: Option<Sentiment>)

  /** The analysis of one comment: `analyze` is the analysis request, `None`
      when it fails, in which case the comment is kept without analysis. */
  function AnalyzeOne(c: Comment, analyze: Comment -> Option<Sentiment>): (r: ClientComment)
    ensures r.comment == c
    ensures r.sentiment.None? <==> analyze(c).None?
    ensures r.sentiment.Some? ==> r.sentiment.value == analyze(c).value
  {
    ClientComment(c, analyze(c))
  }

  /** The class a listed comment gets: its label, or "neutral" when there is
      no analysis or its label is empty. */
  function DisplayClass(cc: ClientComment): (r: string)
    ensures r != []
    ensures cc.sentiment.None? ==> r == NeutralName
    ensures cc.sentiment.Some? && cc.sentiment.value.category != [] ==> r == cc.sentiment.value.category
  {
    match cc.sentiment
    case None => NeutralName
    case Some(s) => if s.category == [] then NeutralName else s.category
  }

  /** `analyzeCommentsInBatches`: the comments are analysed `batchSize` at a
      time, a batch's results appended in the batch's order, with a pause
      between consecutive batches. The result is the comments analysed one by
      one, in order; `waits` counts the pauses, one fewer than the batches. A
      batch size below one would never advance. */
  method AnalyzeInBatches(comments: seq<Comment>, batchSize: int, analyze: Comment -> Option<Sentiment>)
    returns (r: seq<ClientComment>, waits: nat)
    requires batchSize >= 1
    ensures |r| == |comments|
    ensures forall j :: 0 <= j < |r| ==> r[j] == AnalyzeOne(comments[j], analyze)
    ensures comments == [] ==> waits == 0
    ensures comments != [] ==> waits * batchSize < |comments| <= (waits + 1) * batchSize
  {
    var n := |comments|;
    r := [];
    waits := 0;
    var i := 0;
    ghost var k := 0;
    while i < n
      invariant 0 <= k && i == k * batchSize
      invariant |r| == (if i < n then i else n)
      invariant forall j :: 0 <= j < |r| ==> r[j] == AnalyzeOne(comments[j], analyze)
      invariant i < n ==> waits == k
      invariant i >= n && n > 0 ==> k >= 1 && waits == k - 1 && waits * batchSize < n
      invariant n == 0 ==> waits == 0
      decreases n - i
    {
      var end := if i + batchSize < n then i + batchSize else n;
      var batch := comments[i..end];
      var results := seq(|batch|, j requires 0 <= j < |batch| => AnalyzeOne(batch[j], analyze));
      assert |results| == end - i;
      assert forall j :: 0 <= j < |results| ==> results[j] == AnalyzeOne(comments[i + j], analyze);
      r := r + results;
      if i + batchSize < n {
        waits := waits + 1;
      }
      i := i + batchSize;
      k := k + 1;
    }
  }

  /** What the comment list shows after a load. */
  datatype CommentsView =
    | LoadFailed          // the fetch failed
    | NoRecentComments    // nothing in the window
    | Listed(items: seq<ClientComment>)

  /** `loadComments`: `fetched` is the response for the chosen window (`None`
      when the request fails). Only the first twenty comments are analysed and
      listed, in order. */
  method LoadComments(fetched: Option<seq<Comment>>, analyze: Comment -> Option<Sentiment>)
    returns (v: CommentsView)
    ensures fetched.None? <==> v == LoadFailed
    ensures fetched == Some([]) <==> v == NoRecentComments
    ensures v.Listed? ==>
      && fetched.Some?
      && |v.items| == (if |fetched.value| < AnalyzedOnLoad then |fetched.value| else AnalyzedOnLoad)
      && forall j :: 0 <= j < |v.items| ==> v.items[j] == AnalyzeOne(fetched.value[j], analyze)
  {
    match fetched
    case None =>
      v := LoadFailed;
    case Some(comments) =>
      if comments == [] {
        v := NoRecentComments;
      } else {
        var first := if |comments| < AnalyzedOnLoad then comments else comments[..AnalyzedOnLoad];
        var analysed, _ := AnalyzeInBatches(first, DefaultBatchSize, analyze);
        v := Listed(analysed);
      }
  }
}

=== FILE: comment_record.dfy ===
/** The comment record collection: one record per platform comment id, the id
    being a unique key, so a second insert for the same id is refused. The
    service only ever inserts and looks up; it never updates or deletes. */
module CommentRecord {
  import opened Results
  import opened Sentiment

  /** A stored record: exactly the fields the schema declares. Values the
      service passes in besides these (text, author, reply text, error message)
      are not part of the schema and are not kept. */
  datatype Record = Record(
    commentId: string,
    sentiment: Sentiment,
    replied: bool,
    repliedAt: Option<int>,
    createdAt: int)

  /** The collection, indexed by the unique `commentId`. */
  type Records = map<string, Record>

  /** Every record sits under its own id. */
  ghost predicate KeyedById(rs: Records) {
    forall k :: k in rs ==> rs[k].commentId == k
  }

  /** The fields supplied on insertion; `replied` and `createdAt` may be left
      to the schema's defaults. */
  datatype Draft = Draft(
    commentId: string,
    sentiment: Sentiment,
    replied: Option<bool>,
    repliedAt: Option<int>)

  /** The record the schema builds from a draft inserted at time `now`. */
  function FromDraft(d: Draft, now: int): (r: Record)
    ensures r.commentId == d.commentId && r.sentiment == d.sentiment && r.repliedAt == d.repliedAt
    ensures r.createdAt == now
    ensures r.replied <==> d.replied == Some(true)
  {
    Record(d.commentId, d.sentiment, d.replied.GetOr(false), d.repliedAt, now)
  }

  datatype InsertError =
    | MissingId     // validation: the required `commentId` is empty
    | DuplicateKey  // error code 11000: a record with this id exists
    | StoreFault    // any other failure of the database call

  /** `create`: insert one record built from `d` at time `now`. The schema
      validates first: a required string field rejects the empty string, so
      an empty id is refused before the database is reached. `ok` is false
      when the database call fails for a reason of its own. */
  function Create(rs: Records, d: Draft, now: int, ok: bool): (r: Result<Records, InsertError>)
    ensures d.commentId == "" ==> r == Failure(MissingId)
    ensures d.commentId in rs ==> r.Failure?
    ensures r.Success? <==> ok && d.commentId != "" && d.commentId !in rs
    ensures r.Success? ==> r.value == rs[d.commentId := FromDraft(d, now)]
  {
    if d.commentId == "" then Failure(MissingId)
    else if !ok then Failure(StoreFault)
    else if d.commentId in rs then Failure(DuplicateKey)
    else Success(rs[d.commentId := FromDraft(d, now)])
  }

  /** No record is ever stored under the empty id. */
  lemma CreateNeverStoresEmptyId(rs: Records, d: Draft, now: int, ok: bool)
    requires "" !in rs
    ensures Create(rs, d, now, ok).Success? ==> "" !in Create(rs, d, now, ok).value
  {
  }

  /** A successful insert adds exactly one record, under the draft's id, keeps
      every record indexed by its own id, and leaves all others untouched. */
  lemma CreateAddsOne(rs: Records, d: Draft, now: int, ok: bool)
    requires KeyedById(rs)
    requires Create(rs, d, now, ok).Success?
    ensures var rs' := Create(rs, d, now, ok).value;
      && KeyedById(rs')
      && rs'.Keys == rs.Keys + {d.commentId}
      && |rs'| == |rs| + 1
      && forall k :: k in rs ==> rs'[k] == rs[k]
  {
  }

  /** Once a record exists for an id, every later insert for it is refused with
      the duplicate-key error, whatever else happens. */
  lemma SecondCreateRefused(rs: Records, d1: Draft, d2: Draft, now1: int, now2: int)
    requires Create(rs, d1, now1, true).Success?
    requires d2.commentId == d1.commentId
    ensures Create(Create(rs, d1, now1, true).value, d2, now2, true) == Failure(DuplicateKey)
  {
  }
}

=== FILE: dashboard.dfy ===
/** The dashboard's routes: the overview aggregation, the sentiment analytics,
    the auto-reply switch and status, the manual trigger and the usage read.
    A route that fails answers with status 500; here that is `None`. */
module Dashboard {
  import opened Results
  import opened Sentiment
  import opened CommentRecord
  import ApiCounter
  import opened Youtube
  import opened Pipeline
  import opened Monitoring

  const OverviewVideos: nat := 10
  const OverviewLookbackHours: int := 24
  /** The overview's breakdown looks at this many recent comments ... */
  const BreakdownSample: nat := 20
  const RecentVideosShown: nat := 5
  const RecentCommentsShown: nat := 10
  /** ... and the analytics at this many. */
  const AnalyticsSample: nat := 100
  /** A week, used when the `hours` query is missing, not a number, or 0. */
  const DefaultAnalyticsHours: int := 168

  // ---- totals ----

  function Views(v: Video): nat { v.viewCount }
  function Likes(v: Video): nat { v.likeCount }
  function CommentCount(v: Video): nat { v.commentCount }

  /** The sum of `f` over the videos. */
  function Total(vs: seq<Video>, f: Video -> nat): nat {
    if vs == [] then 0 else f(vs[0]) + Total(vs[1..], f)
  }

  /** `reduce((sum, video) => sum + f(video), acc)`, folding from the left. */
  function Reduce(vs: seq<Video>, f: Video -> nat, acc: nat): (r: nat)
    ensures r >= acc
  {
    if vs == [] then acc else Reduce(vs[1..], f, acc + f(vs[0]))
  }

  lemma {:induction false} ReduceIsTotal(vs: seq<Video>, f: Video -> nat, acc: nat)
    ensures Reduce(vs, f, acc) == acc + Total(vs, f)
  {
    if vs != [] {
      ReduceIsTotal(vs[1..], f, acc + f(vs[0]));
    }
  }

  /** Totals add up over any split of the video list. */
  lemma {:induction false} TotalAppend(a: seq<Video>, b: seq<Video>, f: Video -> nat)
    ensures Total(a + b, f) == Total(a, f) + Total(b, f)
  {
    if a == [] {
      assert a + b == b;
    } else {
      assert (a + b)[1..] == a[1..] + b;
      TotalAppend(a[1..], b, f);
    }
  }

  // ---- the overview's sentiment breakdown ----

  /** The three counters, and the labels outside them that the loop met: the
      source increments a missing key, which stores NaN under that label. */
  datatype SentimentCounts = SentimentCounts(positive: nat, negative: nat, neutral: nat, strays: set<string>)

  const NoCounts := SentimentCounts(0, 0, 0, {})

  /** The label a comment is counted under: its stored label, or neutral when
      it has no record. */
  function BucketOf(rs: Records, c: Comment): string {
    if c.id in rs then rs[c.id].sentiment.category else NeutralName
  }

  function Bump(acc: SentimentCounts, category: string): SentimentCounts {
    if category == PositiveName then acc.(positive := acc.positive + 1)
    else if category == NegativeName then acc.(negative := acc.negative + 1)
    else if category == NeutralName then acc.(neutral := acc.neutral + 1)
    else acc.(strays := acc.strays + {category})
  }

  /** The loop of the overview, comment by comment. */
  function Tally(rs: Records, cs: seq<Comment>, acc: SentimentCounts): (r: SentimentCounts)
    ensures acc.positive <= r.positive && acc.negative <= r.negative && acc.neutral <= r.neutral
    ensures acc.strays <= r.strays
    ensures r.positive + r.negative + r.neutral <= acc.positive + acc.negative + acc.neutral + |cs|
  {
    if cs == [] then acc else Tally(rs, cs[1..], Bump(acc, BucketOf(rs, cs[0])))
  }

  /** How many of `cs` are counted under `category`. */
  function CountIn(rs: Records, cs: seq<Comment>, category: string): nat {
    if cs == [] then 0 else (if BucketOf(rs, cs[0]) == category then 1 else 0) + CountIn(rs, cs[1..], category)
  }

  predicate IsBucket(category: string) {
    category == PositiveName || category == NegativeName || category == NeutralName
  }

  /** How many of `cs` are counted under none of the three buckets. */
  function StrayCount(rs: Records, cs: seq<Comment>): nat {
    if cs == [] then 0 else (if IsBucket(BucketOf(rs, cs[0])) then 0 else 1) + StrayCount(rs, cs[1..])
  }

  /** The loop counts each comment once, under its bucket. */
  lemma {:induction false} TallyCounts(rs: Records, cs: seq<Comment>, acc: SentimentCounts)
    ensures var r := Tally(rs, cs, acc);
      && r.positive == acc.positive + CountIn(rs, cs, PositiveName)
      && r.negative == acc.negative + CountIn(rs, cs, NegativeName)
      && r.neutral == acc.neutral + CountIn(rs, cs, NeutralName)
      && r.strays == acc.strays + (set c | c in cs && !IsBucket(BucketOf(rs, c)) :: BucketOf(rs, c))
  {
    if cs != [] {
      TallyCounts(rs, cs[1..], Bump(acc, BucketOf(rs, cs[0])));
      assert forall x :: x in cs <==> x == cs[0] || x in cs[1..];
    }
  }

  /** The buckets and the strays partition the comments, so the three
      counters add up to the number of comments exactly when no stored label
      is outside them. */
  lemma {:induction false} BucketsPartition(rs: Records, cs: seq<Comment>)
    ensures CountIn(rs, cs, PositiveName) + CountIn(rs, cs, NegativeName) + CountIn(rs, cs, NeutralName)
      + StrayCount(rs, cs) == |cs|
    ensures StrayCount(rs, cs) == 0 <==> forall c :: c in cs ==> IsBucket(BucketOf(rs, c))
  {
    if cs != [] {
      BucketsPartition(rs, cs[1..]);
      assert forall x :: x in cs <==> x == cs[0] || x in cs[1..];
    }
  }

  datatype OverviewAnalytics = OverviewAnalytics(
    totalViews: nat,
    totalLikes: nat,
    totalComments: nat,
    recentCommentsCount: nat,
    sentimentBreakdown: SentimentCounts)

  datatype Overview = Overview(
    channel: ChannelInfo,
    analytics: OverviewAnalytics,
    recentVideos: seq<Video>,
    recentComments: seq<Comment>)

  /** `GET /overview`: the channel, the first ten uploads, the comments of the
      last 24 hours, totals over the uploads and a breakdown of the first 20
      comments. Any of the three fetches failing fails the route. */
  function GetOverview(p: Platform, rs: Records, now: int): (r: Option<Overview>)
    ensures r.Some? <==> p.channel.Some? && p.uploads.Some?
    ensures r.Some? ==>
      var vs := GetVideos(p, OverviewVideos).value;
      var cs := RecentComments(p, OverviewLookbackHours, now).value;
      var sample := cs[..Min(BreakdownSample, |cs|)];
      var a := r.value.analytics;
      && r.value.channel == p.channel.value
      && a.totalViews == Total(vs, Views)
      && a.totalLikes == Total(vs, Likes)
      && a.totalComments == Total(vs, CommentCount)
      && a.recentCommentsCount == |cs|
      && a.sentimentBreakdown.positive == CountIn(rs, sample, PositiveName)
      && a.sentimentBreakdown.negative == CountIn(rs, sample, NegativeName)
      && a.sentimentBreakdown.neutral == CountIn(rs, sample, NeutralName)
      && a.sentimentBreakdown.positive + a.sentimentBreakdown.negative + a.sentimentBreakdown.neutral
           + StrayCount(rs, sample) == Min(BreakdownSample, |cs|)
      && r.value.recentVideos == vs[..Min(RecentVideosShown, |vs|)]
      && r.value.recentComments == cs[..Min(RecentCommentsShown, |cs|)]
  {
    match (p.channel, GetVideos(p, OverviewVideos), RecentComments(p, OverviewLookbackHours, now))
    case (Some(channel), Some(vs), Some(cs)) =>
      var sample := cs[..Min(BreakdownSample, |cs|)];
      var counts := Tally(rs, sample, NoCounts);
      ReduceIsTotal(vs, Views, 0);
      ReduceIsTotal(vs, Likes, 0);
      ReduceIsTotal(vs, CommentCount, 0);
      TallyCounts(rs, sample, NoCounts);
      BucketsPartition(rs, sample);
      Some(Overview(
        channel,
        OverviewAnalytics(
          Reduce(vs, Views, 0),
          Reduce(vs, Likes, 0),
          Reduce(vs, CommentCount, 0),
          |cs|,
          counts),
        vs[..Min(RecentVideosShown, |vs|)],
        cs[..Min(RecentCommentsShown, |cs|)]))
    case _ => None
  }

  // ---- sentiment analytics ----

  /** `parseInt(hours) || 168`; `parsed` is `None` when the query is missing or
      not a number. */
  function AnalyticsHours(parsed: Option<int>): (h: int)
    ensures parsed.None? ==> h == DefaultAnalyticsHours
    ensures parsed == Some(0) ==> h == DefaultAnalyticsHours
    ensures parsed.Some? && parsed.value != 0 ==> h == parsed.value
  {
    match parsed
    case Some(n) => if n == 0 then DefaultAnalyticsHours else n
    case None => DefaultAnalyticsHours
  }

  /** A comment as the analytics report it, with its stored label and confidence. */
  datatype Enriched = Enriched(
    commentId: string,
    author: string,
    authorProfileImageUrl: string,
    comment: string,
    confidence: real,
    publishedAt: int,
    videoTitle: Option<string>,
    likeCount: int,
    category: string)

  function Enrich(c: Comment, rec: Record): (e: Enriched)
    ensures e.commentId == c.id && e.comment == c.text && e.publishedAt == c.publishedAt
    ensures e.category == rec.sentiment.category && e.confidence == rec.sentiment.confidence
    ensures c.author == "" ==> e.author == "Unknown"
    ensures c.author != "" ==> e.author == c.author
  {
    Enriched(
      c.id,
      if c.author == "" then "Unknown" else c.author,
      c.authorProfileImageUrl,
      c.text,
      rec.sentiment.confidence,
      c.publishedAt,
      if c.video.Some? then Some(c.video.value.videoTitle) else None,
      c.likeCount,
      rec.sentiment.category)
  }

  /** A timeline entry is a (label, time) point; a comment whose stored label is
      the word "timeline" is itself pushed onto the timeline as well, since the
      source files comments under the response key named by the label. */
  datatype TimelineEntry = Point(category: string, publishedAt: int) | Misfiled(entry: Enriched)

  datatype SentimentData = SentimentData(
    positive: seq<Enriched>,
    negative: seq<Enriched>,
    neutral: seq<Enriched>,
    timeline: seq<TimelineEntry>)

  const TimelineKey := "timeline"
  const NoData := SentimentData([], [], [], [])

  /** The response keys a label can be filed under without failing. */
  predicate IsResponseKey(category: string) {
    IsBucket(category) || category == TimelineKey
  }

  /** Push `e` onto the list named by its label; `None` when there is no such
      list (pushing onto a missing key throws, failing the route). */
  function FileUnder(acc: SentimentData, e: Enriched): (r: Option<SentimentData>)
    ensures r.Some? <==> IsResponseKey(e.category)
  {
    if e.category == PositiveName then Some(acc.(positive := acc.positive + [e]))
    else if e.category == NegativeName then Some(acc.(negative := acc.negative + [e]))
    else if e.category == NeutralName then Some(acc.(neutral := acc.neutral + [e]))
    else if e.category == TimelineKey then Some(acc.(timeline := acc.timeline + [Misfiled(e)]))
    else None
  }

  /** The loop of the analytics route: comments without a record are skipped. */
  function Gather(rs: Records, cs: seq<Comment>, acc: SentimentData): (r: Option<SentimentData>)
    ensures r.Some? ==> |r.value.timeline| >= |acc.timeline| + |Recorded(rs, cs)|
  {
    if cs == [] then Some(acc)
    else if cs[0].id !in rs then Gather(rs, cs[1..], acc)
    else
      var rec := rs[cs[0].id];
      match FileUnder(acc, Enrich(cs[0], rec))
      case None => None
      case Some(filed) =>
        Gather(rs, cs[1..], filed.(timeline := filed.timeline + [Point(rec.sentiment.category, cs[0].publishedAt)]))
  }

  /** The comments of `cs` that have a record. */
  function Recorded(rs: Records, cs: seq<Comment>): seq<Comment> {
    if cs == [] then [] else (if cs[0].id in rs then [cs[0]] else []) + Recorded(rs, cs[1..])
  }

  /** The enriched form of the recorded comments of `cs` stored with `category`, in order. */
  function FiledAs(rs: Records, cs: seq<Comment>, category: string): seq<Enriched> {
    if cs == [] then []
    else
      (if cs[0].id in rs && rs[cs[0].id].sentiment.category == category then [Enrich(cs[0], rs[cs[0].id])] else [])
        + FiledAs(rs, cs[1..], category)
  }

  /** The timeline the analytics build for `cs`: one point per recorded comment. */
  function TimelineOf(rs: Records, cs: seq<Comment>): seq<TimelineEntry> {
    if cs == [] then []
    else if cs[0].id !in rs then TimelineOf(rs, cs[1..])
    else
      var rec := rs[cs[0].id];
      (if rec.sentiment.category == TimelineKey then [Misfiled(Enrich(cs[0], rec))] else [])
        + [Point(rec.sentiment.category, cs[0].publishedAt)] + TimelineOf(rs, cs[1..])
  }

  /** Every recorded comment of `cs` has a label the response can hold. */
  predicate AllFileable(rs: Records, cs: seq<Comment>) {
    forall c :: c in cs && c.id in rs ==> IsResponseKey(rs[c.id].sentiment.category)
  }

  /** The loop fails exactly when some recorded comment has a label that
      names no list of the response. */
  lemma {:induction false} GatherFails(rs: Records, cs: seq<Comment>, acc: SentimentData)
    ensures Gather(rs, cs, acc).Some? <==> AllFileable(rs, cs)
  {
    if cs != [] {
      assert forall x :: x in cs <==> x == cs[0] || x in cs[1..];
      var c := cs[0];
      if c.id !in rs {
        GatherFails(rs, cs[1..], acc);
      } else {
        var rec := rs[c.id];
        if IsResponseKey(rec.sentiment.category) {
          var filed := FileUnder(acc, Enrich(c, rec)).value;
          GatherFails(rs, cs[1..], filed.(timeline := filed.timeline + [Point(rec.sentiment.category, c.publishedAt)]));
        }
      }
    }
  }

  /** The response the loop builds on top of `acc` for `cs`. */
  function FiledOnto(rs: Records, cs: seq<Comment>, acc: SentimentData): SentimentData {
    SentimentData(
      acc.positive + FiledAs(rs, cs, PositiveName),
      acc.negative + FiledAs(rs, cs, NegativeName),
      acc.neutral + FiledAs(rs, cs, NeutralName),
      acc.timeline + TimelineOf(rs, cs))
  }

  /** The part of `e` a list of the response takes when `e` is filed: `e`
      itself for the list named by its label, nothing for the others. */
  function Part<T>(category: string, name: string, x: T): seq<T> {
    if category == name then [x] else []
  }

  /** Filing a fileable entry appends it to exactly the list its label names. */
  lemma FileUnderParts(acc: SentimentData, e: Enriched)
    requires IsResponseKey(e.category)
    ensures FileUnder(acc, e).Some?
    ensures var r := FileUnder(acc, e).value;
      && r.positive == acc.positive + Part(e.category, PositiveName, e)
      && r.negative == acc.negative + Part(e.category, NegativeName, e)
      && r.neutral == acc.neutral + Part(e.category, NeutralName, e)
      && r.timeline == acc.timeline + Part(e.category, TimelineKey, Misfiled(e))
  {
  }

  /** Filing one recorded comment and then the rest is filing them all. */
  lemma FiledOntoStep(rs: Records, cs: seq<Comment>, acc: SentimentData)
    requires cs != [] && cs[0].id in rs && IsResponseKey(rs[cs[0].id].sentiment.category)
    ensures var rec := rs[cs[0].id];
      var filed := FileUnder(acc, Enrich(cs[0], rec)).value;
      FiledOnto(rs, cs[1..], filed.(timeline := filed.timeline + [Point(rec.sentiment.category, cs[0].publishedAt)]))
        == FiledOnto(rs, cs, acc)
  {
    var c := cs[0];
    var rec := rs[c.id];
    var e := Enrich(c, rec);
    var category := rec.sentiment.category;
    var pt := Point(category, c.publishedAt);
    var rest := cs[1..];
    FileUnderParts(acc, e);
    var filed := FileUnder(acc, e).value;
    var next := filed.(timeline := filed.timeline + [pt]);
    ConsTimeline(rs, cs, next.timeline, acc.timeline);
    ConsFiled(rs, cs, PositiveName, next.positive, acc.positive);
    ConsFiled(rs, cs, NegativeName, next.negative, acc.negative);
    ConsFiled(rs, cs, NeutralName, next.neutral, acc.neutral);
  }

  /** One step of `FiledAs`: a list that took the first comment exactly when
      its label is `category` ends the same after the rest. */
  lemma ConsFiled(rs: Records, cs: seq<Comment>, category: string, next: seq<Enriched>, acc: seq<Enriched>)
    requires cs != [] && cs[0].id in rs
    requires next == acc + (if rs[cs[0].id].sentiment.category == category then [Enrich(cs[0], rs[cs[0].id])] else [])
    ensures next + FiledAs(rs, cs[1..], category) == acc + FiledAs(rs, cs, category)
  {
  }

  /** One step of `TimelineOf` for a recorded comment. */
  lemma ConsTimeline(rs: Records, cs: seq<Comment>, next: seq<TimelineEntry>, acc: seq<TimelineEntry>)
    requires cs != [] && cs[0].id in rs
    requires var rec := rs[cs[0].id];
      next == acc + Part(rec.sentiment.category, TimelineKey, Misfiled(Enrich(cs[0], rec)))
        + [Point(rec.sentiment.category, cs[0].publishedAt)]
    ensures next + TimelineOf(rs, cs[1..]) == acc + TimelineOf(rs, cs)
  {
    var rec := rs[cs[0].id];
    var mis := Part(rec.sentiment.category, TimelineKey, Misfiled(Enrich(cs[0], rec)));
    var pt := Point(rec.sentiment.category, cs[0].publishedAt);
    assert TimelineOf(rs, cs) == mis + [pt] + TimelineOf(rs, cs[1..]);
  }

  /** When it succeeds, the loop files each recorded comment under its label,
      in order, and builds the timeline. */
  lemma {:induction false} GatherFiles(rs: Records, cs: seq<Comment>, acc: SentimentData)
    ensures Gather(rs, cs, acc).Some? ==> Gather(rs, cs, acc).value == FiledOnto(rs, cs, acc)
  {
    if cs == [] {
      assert acc.positive + [] == acc.positive;
      assert acc.negative + [] == acc.negative;
      assert acc.neutral + [] == acc.neutral;
      assert acc.timeline + [] == acc.timeline;
    } else if cs[0].id !in rs {
      GatherFiles(rs, cs[1..], acc);
    } else if IsResponseKey(rs[cs[0].id].sentiment.category) {
      var rec := rs[cs[0].id];
      var filed := FileUnder(acc, Enrich(cs[0], rec)).value;
      var next := filed.(timeline := filed.timeline + [Point(rec.sentiment.category, cs[0].publishedAt)]);
      assert Gather(rs, cs, acc) == Gather(rs, cs[1..], next);
      GatherFiles(rs, cs[1..], next);
      FiledOntoStep(rs, cs, acc);
    }
  }

  /** When every stored label is one of the three, each recorded comment lands
      in exactly one bucket ... */
  lemma {:induction false} AnalyticsPartition(rs: Records, cs: seq<Comment>)
    requires forall c :: c in cs && c.id in rs ==> IsBucket(rs[c.id].sentiment.category)
    ensures |FiledAs(rs, cs, PositiveName)| + |FiledAs(rs, cs, NegativeName)| + |FiledAs(rs, cs, NeutralName)|
      == |Recorded(rs, cs)|
  {
    if cs != [] {
      assert forall x :: x in cs[1..] ==> x in cs;
      AnalyticsPartition(rs, cs[1..]);
    }
  }

  /** The timeline points of recorded comments, in order. */
  function Points(rs: Records, recorded: seq<Comment>): (r: seq<TimelineEntry>)
    ensures |r| == |recorded|
    ensures forall i :: 0 <= i < |r| ==> r[i] == Point(BucketOf(rs, recorded[i]), recorded[i].publishedAt)
  {
    if recorded == [] then []
    else [Point(BucketOf(rs, recorded[0]), recorded[0].publishedAt)] + Points(rs, recorded[1..])
  }

  /** ... and once in the timeline, in order. */
  lemma {:induction false} AnalyticsTimeline(rs: Records, cs: seq<Comment>)
    requires forall c :: c in cs && c.id in rs ==> IsBucket(rs[c.id].sentiment.category)
    ensures TimelineOf(rs, cs) == Points(rs, Recorded(rs, cs))
  {
    if cs != [] {
      assert forall x :: x in cs[1..] ==> x in cs;
      AnalyticsTimeline(rs, cs[1..]);
      var c := cs[0];
      if c.id in rs {
        var r := Recorded(rs, cs);
        assert r == [c] + Recorded(rs, cs[1..]);
        assert r[1..] == Recorded(rs, cs[1..]);
      }
    }
  }

  /** `GET /analytics/sentiment`: the first 100 comments of the window, filed
      by stored label. Fails when the comments cannot be fetched or a stored
      label names no list of the response. */
  function SentimentAnalytics(p: Platform, rs: Records, hours: Option<int>, now: int): (r: Option<SentimentData>)
    ensures var recent := RecentComments(p, AnalyticsHours(hours), now);
      && (r.Some? <==> recent.Some? && AllFileable(rs, recent.value[..Min(AnalyticsSample, |recent.value|)]))
      && (r.Some? ==>
            var sample := recent.value[..Min(AnalyticsSample, |recent.value|)];
            && r.value.positive == FiledAs(rs, sample, PositiveName)
            && r.value.negative == FiledAs(rs, sample, NegativeName)
            && r.value.neutral == FiledAs(rs, sample, NeutralName)
            && r.value.timeline == TimelineOf(rs, sample))
  {
    match RecentComments(p, AnalyticsHours(hours), now)
    case None => None
    case Some(cs) =>
      var sample := cs[..Min(AnalyticsSample, |cs|)];
      GatherFails(rs, sample, NoData);
      GatherFiles(rs, sample, NoData);
      assert NoData.positive + FiledAs(rs, sample, PositiveName) == FiledAs(rs, sample, PositiveName);
      assert NoData.negative + FiledAs(rs, sample, NegativeName) == FiledAs(rs, sample, NegativeName);
      assert NoData.neutral + FiledAs(rs, sample, NeutralName) == FiledAs(rs, sample, NeutralName);
      assert NoData.timeline + TimelineOf(rs, sample) == TimelineOf(rs, sample);
      Gather(rs, sample, NoData)
  }

  // ---- auto-reply switch and status ----

  /** A request-body value, as far as JavaScript truthiness is concerned
      (NaN is left out). */
  datatype JsValue = Undefined | Null | Bool(b: bool) | Number(n: real) | Str(s: string) | Object

  predicate Truthy(v: JsValue) {
    match v
    case Undefined => false
    case Null => false
    case Bool(b) => b
    case Number(n) => n != 0.0
    case Str(s) => s != ""
    case Object => true
  }

  datatype ToggleReply = ToggleReply(success: bool, autoReplyEnabled: JsValue, message: string)

  /** The monitor after the request, and the reply: a failure (status 500)
      when starting threw because the scheduler rejected the cron expression. */
  datatype Toggled = Toggled(monitor: Monitor, reply: Result<ToggleReply, ScheduleError>)

  /** `POST /auto-reply/toggle`: start monitoring for a truthy `enabled`, stop
      it otherwise, and echo `enabled`. A start that throws leaves the monitor
      as it was and answers with the error. */
  function Toggle(m: Monitor, enabled: JsValue, intervalEnv: string, accepts: string -> bool): (r: Toggled)
    ensures Truthy(enabled) ==> r.monitor == AfterStart(m, intervalEnv, accepts)
    ensures !Truthy(enabled) ==> r.monitor == Stop(m)
    ensures r.reply.Failure? <==> Truthy(enabled) && Start(m, intervalEnv, accepts).Failure?
    ensures r.reply.Failure? ==> r.monitor == m && r.reply.error == Start(m, intervalEnv, accepts).error
    ensures r.reply.Success? ==> r.monitor.isMonitoring == Truthy(enabled)
    ensures r.reply.Success? ==>
      && r.reply.value.success && r.reply.value.autoReplyEnabled == enabled
      && r.reply.value.message == if Truthy(enabled) then "Auto-reply enabled" else "Auto-reply disabled"
  {
    if Truthy(enabled) then
      match Start(m, intervalEnv, accepts)
      case Success(next) => Toggled(next, Success(ToggleReply(true, enabled, "Auto-reply enabled")))
      case Failure(e) => Toggled(m, Failure(e))
    else Toggled(Stop(m), Success(ToggleReply(true, enabled, "Auto-reply disabled")))
  }

  /** The settings as the status route reads them (an unset variable is ""). */
  datatype Settings = Settings(autoReplyEnabled: string, checkIntervalMinutes: string, sentimentThreshold: string)

  datatype Status = Status(enabled: bool, isMonitoring: bool, checkInterval: string, sentimentThreshold: string)

  /** `GET /auto-reply/status`. */
  function GetStatus(m: Monitor, s: Settings): (r: Status)
    ensures r.enabled <==> s.autoReplyEnabled == AutoReplyOn
    ensures r.isMonitoring == m.isMonitoring
    ensures r.checkInterval == IntervalSetting(s.checkIntervalMinutes)
    ensures s.sentimentThreshold == "" ==> r.sentimentThreshold == "0.3"
    ensures s.sentimentThreshold != "" ==> r.sentimentThreshold == s.sentimentThreshold
  {
    Status(
      s.autoReplyEnabled == AutoReplyOn,
      m.isMonitoring,
      IntervalSetting(s.checkIntervalMinutes),
      if s.sentimentThreshold == "" then "0.3" else s.sentimentThreshold)
  }

  /** The toggle changes whether monitoring runs, never the reported
      `enabled`, which only the auto-reply setting decides. When the toggle
      answers normally, monitoring runs exactly when the request's value is
      truthy: the string "false" is truthy, so it turns monitoring on. A start
      that throws leaves the status as it was. */
  lemma ToggleLeavesEnabled(m: Monitor, v: JsValue, s: Settings, accepts: string -> bool)
    ensures var t := Toggle(m, v, s.checkIntervalMinutes, accepts);
      && GetStatus(t.monitor, s).enabled == GetStatus(m, s).enabled
      && (t.reply.Success? ==> GetStatus(t.monitor, s).isMonitoring == Truthy(v))
      && (t.reply.Failure? ==> GetStatus(t.monitor, s) == GetStatus(m, s))
    ensures var t := Toggle(m, Str("false"), s.checkIntervalMinutes, accepts);
      t.reply.Success? ==> t.monitor.isMonitoring
  {
  }

  // ---- manual trigger ----

  datatype TriggerReply = TriggerReply(success: bool, processedComments: nat, results: seq<ProcessResult>)

  datatype Triggered = Triggered(db: Db, reply: TriggerReply)

  /** `POST /monitor/trigger`: one monitoring cycle, reported. The cycle never
      fails, so neither does the route. */
  function Trigger(db: Db, p: Platform, world: string -> CommentWorld, cfg: Config): (r: Triggered)
    ensures r.reply.success
    ensures r.reply.processedComments == |r.reply.results|
    ensures MonitorComments(db, p, world, cfg).results.None? ==> r.reply.processedComments == 0 && r.db == db
    ensures r.db == MonitorComments(db, p, world, cfg).db
    ensures MonitorComments(db, p, world, cfg).results.Some? ==>
      r.reply.results == MonitorComments(db, p, world, cfg).results.value
  {
    var cycle := MonitorComments(db, p, world, cfg);
    match cycle.results
    case None => Triggered(cycle.db, TriggerReply(true, 0, []))
    case Some(results) => Triggered(cycle.db, TriggerReply(true, |results|, results))
  }

  // ---- usage counter ----

  /** `GET /analytics/gemini-usage`: the stored count of the fixed counter
      document, 0 when it does not exist; `None` (status 500) when the lookup
      fails. */
  function GeminiUsage(counters: Option<ApiCounter.Counters>): (r: Option<nat>)
    ensures r.Some? <==> counters.Some?
    ensures r.Some? && ApiCounter.SentimentCounterId in counters.value ==>
      r.value == counters.value[ApiCounter.SentimentCounterId]
    ensures r.Some? && ApiCounter.SentimentCounterId !in counters.value ==> r.value == 0
  {
    match counters
    case None => None
    case Some(cs) => Some(ApiCounter.CallCount(cs))
  }

  /** The usage reported after a monitoring cycle is never below the usage
      before it, and grows by at most one per comment of the cycle. */
  lemma UsageAfterCycle(db: Db, p: Platform, world: string -> CommentWorld, cfg: Config)
    ensures var after := MonitorComments(db, p, world, cfg).db;
      var recent := RecentComments(p, MonitorLookbackHours, cfg.now);
      var before := GeminiUsage(Some(db.counters)).value;
      && before <= GeminiUsage(Some(after.counters)).value
      && (recent.Some? ==> GeminiUsage(Some(after.counters)).value <= before + |recent.value|)
  {
    var recent := RecentComments(p, MonitorLookbackHours, cfg.now);
    if recent.Some? && recent.value != [] {
      ProcessAllCalls(db, recent.value, world, cfg);
    }
  }

  /** Triggering twice over an unchanged platform, with the outside world
      answering as before, reports nothing new the second time. */
  lemma SecondTriggerProcessesNothing(db: Db, p: Platform, world: string -> CommentWorld, cfg: Config)
    ensures var first := Trigger(db, p, world, cfg);
      Trigger(first.db, p, world, cfg).reply.processedComments == 0
  {
    var recent := RecentComments(p, MonitorLookbackHours, cfg.now);
    if recent.Some? && recent.value != [] {
      RerunAddsNothing(db, recent.value, world, cfg);
    }
  }
}

=== FILE: monitoring.dfy ===
/** The monitoring switch of the sentiment service: a flag, and the recurring
    jobs registered so far. Starting registers a job only while the flag is
    off; stopping clears the flag but cancels nothing, so every job ever
    registered keeps firing. The scheduler validates the cron expression when
    a job is registered and throws on one it rejects; `accepts` is that
    validation, an input of the model. */
module Monitoring {
  import opened Results

  const DefaultIntervalMinutes := "30"

  /** The service's state: the flag and the cron expressions of the registered jobs. */
  datatype Monitor = Monitor(isMonitoring: bool, schedules: seq<string>)

  /** The state the service starts in. */
  const Initial := Monitor(false, [])

  /** Why a start threw: the scheduler rejected the cron expression. */
  datatype ScheduleError = InvalidCronExpression(expression: string)

  /** The interval setting, "30" when unset (an unset variable reads as ""). */
  function IntervalSetting(env: string): (r: string)
    ensures env != "" ==> r == env
    ensures env == "" ==> r == DefaultIntervalMinutes
  {
    if env == "" then DefaultIntervalMinutes else env
  }

  /** "every `interval` minutes" */
  function CronExpression(interval: string): string {
    "*/" + interval + " * * * *"
  }

  /** `startMonitoring`. While monitoring it does nothing. Otherwise the job
      is registered before the flag is set, so a rejected expression throws
      with the flag still off and no job registered. */
  function Start(m: Monitor, intervalEnv: string, accepts: string -> bool): (r: Result<Monitor, ScheduleError>)
    ensures m.isMonitoring ==> r == Success(m)
    ensures var e := CronExpression(IntervalSetting(intervalEnv));
      !m.isMonitoring ==> (r.Failure? <==> !accepts(e))
    ensures r.Failure? ==> r.error == InvalidCronExpression(CronExpression(IntervalSetting(intervalEnv)))
    ensures r.Success? && !m.isMonitoring ==>
      r.value == Monitor(true, m.schedules + [CronExpression(IntervalSetting(intervalEnv))])
  {
    if m.isMonitoring then Success(m)
    else
      var e := CronExpression(IntervalSetting(intervalEnv));
      if !accepts(e) then Failure(InvalidCronExpression(e))
      else Success(Monitor(true, m.schedules + [e]))
  }

  /** The state after a start call, whether it threw or not. */
  function AfterStart(m: Monitor, intervalEnv: string, accepts: string -> bool): (r: Monitor)
    ensures m.schedules <= r.schedules && |r.schedules| <= |m.schedules| + 1
    ensures r.isMonitoring <==> m.isMonitoring || accepts(CronExpression(IntervalSetting(intervalEnv)))
  {
    match Start(m, intervalEnv, accepts)
    case Success(next) => next
    case Failure(_) => m
  }

  /** `stopMonitoring`. */
  function Stop(m: Monitor): (r: Monitor)
    ensures !r.isMonitoring
    ensures r.schedules == m.schedules
  {
    m.(isMonitoring := false)
  }

  /** How many pipeline runs one firing of all registered jobs starts: one per
      job, whatever the flag says. */
  function RunsPerTick(m: Monitor): nat {
    |m.schedules|
  }

  /** Starting twice is starting once, whether the first start succeeded or threw. */
  lemma StartIdempotent(m: Monitor, e: string, accepts: string -> bool)
    ensures AfterStart(AfterStart(m, e, accepts), e, accepts) == AfterStart(m, e, accepts)
  {
  }

  /** A start whose expression the scheduler rejects changes nothing. */
  lemma RejectedStartChangesNothing(m: Monitor, e: string, accepts: string -> bool)
    requires !accepts(CronExpression(IntervalSetting(e)))
    ensures AfterStart(m, e, accepts) == m
  {
  }

  /** Stopping does not silence a single job. */
  lemma StopKeepsJobs(m: Monitor)
    ensures RunsPerTick(Stop(m)) == RunsPerTick(m)
  {
  }

  /** start, stop, start from the initial state with an accepted interval
      leaves two jobs, so each tick runs the pipeline twice; with a rejected
      one, no job at all. */
  lemma RestartDoublesRuns(e: string, accepts: string -> bool)
    ensures var m := AfterStart(Stop(AfterStart(Initial, e, accepts)), e, accepts);
      && (accepts(CronExpression(IntervalSetting(e))) ==> m.isMonitoring && RunsPerTick(m) == 2)
      && (!accepts(CronExpression(IntervalSetting(e))) ==> m == Initial)
  {
  }

  datatype Command = StartCommand(intervalEnv: string) | StopCommand

  function Apply(m: Monitor, cmds: seq<Command>, accepts: string -> bool): Monitor
    decreases |cmds|
  {
    if cmds == [] then m
    else
      var next := match cmds[0]
        case StartCommand(e) => AfterStart(m, e, accepts)
        case StopCommand => Stop(m);
      Apply(next, cmds[1..], accepts)
  }

  function StartsIn(cmds: seq<Command>): nat {
    if cmds == [] then 0 else (if cmds[0].StartCommand? then 1 else 0) + StartsIn(cmds[1..])
  }

  /** Over any sequence of commands: registered jobs are never removed, at most
      one is added per start command, and while the flag is on there is at
      least one job. */
  lemma {:induction false} ApplyFacts(m: Monitor, cmds: seq<Command>, accepts: string -> bool)
    requires m.isMonitoring ==> |m.schedules| > 0
    ensures var r := Apply(m, cmds, accepts);
      && m.schedules <= r.schedules
      && |r.schedules| <= |m.schedules| + StartsIn(cmds)
      && (r.isMonitoring ==> |r.schedules| > 0)
    decreases |cmds|
  {
    if cmds != [] {
      var next := match cmds[0]
        case StartCommand(e) => AfterStart(m, e, accepts)
        case StopCommand => Stop(m);
      ApplyFacts(next, cmds[1..], accepts);
    }
  }
}

=== FILE: pipeline.dfy ===
/** The comment-processing pipeline of the sentiment service: processing one
    comment against the record store, and a monitoring cycle that processes
    every recent comment in turn. Every call to the outside world is an input:
    a `CommentWorld` says how each call made for one comment turns out. */
module Pipeline {
  import opened Results
  import opened Sentiment
  import opened CommentRecord
  import ApiCounter
  import opened Youtube

  /** A monitoring cycle looks back this many hours. */
  const MonitorLookbackHours: int := 1

  /** Auto-replies are sent only when the setting is exactly this string. */
  const AutoReplyOn := "true"

  /** The settings read by the pipeline (an unset variable is ""), and the clock. */
  datatype Config = Config(autoReplyEnabled: string, sentimentThreshold: string, now: int)

  /** What the platform returns for a posted reply. */
  datatype PostedReply = PostedReply(id: string, text: string, publishedAt: int)

  /** How the outside world answers the calls made for one comment:
      - `lookupOk`: the record lookup succeeds;
      - `classification`: the classifier's answer;
      - `counterOk`: the usage-counter update succeeds;
      - `generate`: the reply generator's answer, as a function of the prompt;
      - `post`: the platform's answer to posting a reply, as a function of the
        reply text (`None`: the post fails);
      - `createOk`: the record insert of the main path succeeds;
      - `fallbackCreateOk`: the insert made after a failed reply succeeds. */
  datatype CommentWorld = CommentWorld(
    lookupOk: bool,
    classification: Classification,
    counterOk: bool,
    generate: string -> Generation,
    post: string -> Option<PostedReply>,
    createOk: bool,
    fallbackCreateOk: bool)

  /** The two collections the pipeline writes. */
  datatype Db = Db(records: Records, counters: ApiCounter.Counters)

  /** What processing one comment reports. */
  datatype ProcessResult = ProcessResult(
    comment: Comment,
    sentiment: Sentiment,
    shouldReply: bool,
    reply: Option<PostedReply>)

  datatype Step = Step(db: Db, result: Option<ProcessResult>)

  /** The classification the pipeline works with for a comment (it does not
      depend on the store). */
  function SentimentFor(w: CommentWorld): Sentiment {
    AnalyzeSentiment(w.classification, w.counterOk, map[]).sentiment
  }

  /** Whether a reply is attempted for a comment, given its classification. */
  predicate AttemptsReply(w: CommentWorld, cfg: Config) {
    ShouldAutoReply(SentimentFor(w), cfg.sentimentThreshold) && cfg.autoReplyEnabled == AutoReplyOn
  }

  /** The text of the attempted reply. */
  function ReplyTextFor(c: Comment, w: CommentWorld): string {
    GenerateReply(c.text, SentimentFor(w), w.generate)
  }

  /** Whether the reply attempted for `c` is posted. */
  predicate ReplyPosted(c: Comment, w: CommentWorld) {
    w.post(ReplyTextFor(c, w)).Some?
  }

  /** Independently of the store's contents, whether processing a comment that
      has no record yet ends with a record for it: the lookup must succeed, the
      id must pass the schema's validation, and then the one insert that the
      branch taken makes must succeed (after a posted reply whose record is
      refused, a second insert is tried). */
  predicate Persists(c: Comment, w: CommentWorld, cfg: Config) {
    && w.lookupOk
    && c.id != ""
    && if AttemptsReply(w, cfg) then
         (ReplyPosted(c, w) && w.createOk) || w.fallbackCreateOk
       else w.createOk
  }

  /** One insert of the record built from `d`, for a comment that has no
      record yet: on success the store gains it and `res` is reported,
      otherwise the store is unchanged and the result is null. The usage
      counter is `counters` either way. */
  function Insert(db: Db, counters: ApiCounter.Counters, d: Draft, ok: bool, now: int, res: ProcessResult): (r: Step)
    requires d.commentId !in db.records
    ensures r.db.counters == counters
    ensures r.result.Some? <==> ok && d.commentId != ""
    ensures r.result.Some? ==> r.result.value == res && r.db.records == db.records[d.commentId := FromDraft(d, now)]
    ensures r.result.None? ==> r.db.records == db.records
  {
    match Create(db.records, d, now, ok)
    case Success(rs) => Step(Db(rs, counters), Some(res))
    case Failure(_) => Step(Db(db.records, counters), None)
  }

  /** The insert made when a reply was attempted and no `replied = true` record
      got stored: the post failed, or its record was refused and the error
      landed in the reply's error handler. */
  function RecordUnreplied(db: Db, c: Comment, counters: ApiCounter.Counters, base: ProcessResult,
                           w: CommentWorld, cfg: Config): (r: Step)
    requires c.id !in db.records
    ensures r.result.Some? ==> r.result.value.reply.None? && c.id in r.db.records && !r.db.records[c.id].replied
  {
    Insert(db, counters, Draft(c.id, base.sentiment, Some(false), None), w.fallbackCreateOk, cfg.now, base.(reply := None))
  }

  /** `processComment`: skip a comment that already has a record (or whose
      lookup fails); otherwise classify it, decide, maybe reply, and insert one
      record for it. Every failure ends in `None` ("null"). */
  function ProcessComment(db: Db, c: Comment, w: CommentWorld, cfg: Config): (r: Step)
    // a comment with a record, or whose lookup fails, is skipped without a write
    ensures !w.lookupOk || c.id in db.records ==> r == Step(db, None)
    // non-null exactly when a record for the comment was newly inserted
    ensures r.result.Some? <==> c.id !in db.records && c.id in r.db.records
    ensures c.id !in db.records ==> (r.result.Some? <==> Persists(c, w, cfg))
    ensures r.result.None? ==> r.db.records == db.records
    ensures r.result.Some? ==> r.db.records.Keys == db.records.Keys + {c.id}
    ensures forall k :: k in db.records ==> k in r.db.records && r.db.records[k] == db.records[k]
    ensures r.result.Some? ==>
      var rec := r.db.records[c.id];
      var res := r.result.value;
      && res.comment == c
      && res.sentiment == SentimentFor(w)
      && (res.shouldReply <==> ShouldAutoReply(res.sentiment, cfg.sentimentThreshold))
      && rec == Record(c.id, res.sentiment, rec.replied, rec.repliedAt, cfg.now)
      // replied only when the policy, the setting and the post all agreed ...
      && (rec.replied ==> res.shouldReply && cfg.autoReplyEnabled == AutoReplyOn && ReplyPosted(c, w))
      // ... and then it is reported with the platform's answer and the time
      && (rec.replied <==> res.reply.Some?)
      && (rec.replied ==> res.reply == w.post(ReplyTextFor(c, w)) && rec.repliedAt == Some(cfg.now))
      && (!rec.replied ==> rec.repliedAt.None?)
    // the usage counter counts the classifier's OK answers
    ensures ApiCounter.CallCount(r.db.counters) == ApiCounter.CallCount(db.counters) +
      (if w.lookupOk && c.id !in db.records && w.classification.Answered? && w.counterOk then 1 else 0)
  {
    if !w.lookupOk || c.id in db.records then Step(db, None)
    else
      var analysis := AnalyzeSentiment(w.classification, w.counterOk, db.counters);
      var sentiment := analysis.sentiment;
      var base := ProcessResult(c, sentiment, ShouldAutoReply(sentiment, cfg.sentimentThreshold), None);
      if base.shouldReply && cfg.autoReplyEnabled == AutoReplyOn then
        var replyText := GenerateReply(c.text, sentiment, w.generate);
        match w.post(replyText)
        case Some(posted) =>
          var first := Insert(db, analysis.counters, Draft(c.id, sentiment, Some(true), Some(cfg.now)), w.createOk,
                              cfg.now, base.(reply := Some(posted)));
          if first.result.Some? then first else RecordUnreplied(db, c, analysis.counters, base, w, cfg)
        case None => RecordUnreplied(db, c, analysis.counters, base, w, cfg)
      else
        Insert(db, analysis.counters, Draft(c.id, sentiment, Some(false), None), w.createOk, cfg.now, base)
  }

  /** Processing keeps every record under its own id. */
  lemma ProcessCommentKeyed(db: Db, c: Comment, w: CommentWorld, cfg: Config)
    requires KeyedById(db.records)
    ensures KeyedById(ProcessComment(db, c, w, cfg).db.records)
  {
  }

  /** Conversely, when the policy and the setting call for a reply, the post
      succeeds and its record is accepted, the comment is stored as replied at
      the current time, and the posted reply is reported. */
  lemma RepliedWhenAllAgree(db: Db, c: Comment, w: CommentWorld, cfg: Config)
    requires w.lookupOk && c.id != "" && c.id !in db.records
    requires AttemptsReply(w, cfg) && ReplyPosted(c, w) && w.createOk
    ensures var r := ProcessComment(db, c, w, cfg);
      && r.result.Some?
      && r.db.records[c.id].replied
      && r.db.records[c.id].repliedAt == Some(cfg.now)
      && r.result.value.reply == w.post(ReplyTextFor(c, w))
  {
  }

  /** A reply that was posted but whose record insert failed ends up recorded
      as not replied, with no reply reported, when the second insert succeeds. */
  lemma PostedButRecordedUnreplied(db: Db, c: Comment, w: CommentWorld, cfg: Config)
    requires w.lookupOk && c.id != "" && c.id !in db.records
    requires AttemptsReply(w, cfg) && ReplyPosted(c, w)
    requires !w.createOk && w.fallbackCreateOk
    ensures var r := ProcessComment(db, c, w, cfg);
      r.result.Some? && r.result.value.reply.None? && !r.db.records[c.id].replied
  {
  }

  /** A negative comment at exactly the toxicity ceiling is recorded unreplied
      even with auto-replies on and every call succeeding. */
  lemma CeilingNegativeNotReplied(db: Db, c: Comment, w: CommentWorld, cfg: Config)
    requires w.lookupOk && c.id != "" && c.id !in db.records && w.createOk
    requires SentimentFor(w).category == NegativeName && SentimentFor(w).toxicity == ToxicityCeiling
    ensures var r := ProcessComment(db, c, w, cfg);
      r.result.Some? && !r.result.value.shouldReply && !r.db.records[c.id].replied
  {
  }

  /** A comment with an empty id is classified, and counted when the
      classifier answers, but never recorded: the insert fails validation and
      the result is null. */
  lemma EmptyIdNeverRecorded(db: Db, c: Comment, w: CommentWorld, cfg: Config)
    requires c.id == "" && "" !in db.records
    ensures var r := ProcessComment(db, c, w, cfg);
      && r.result.None?
      && r.db.records == db.records
      && ApiCounter.CallCount(r.db.counters) == ApiCounter.CallCount(db.counters) +
           (if w.lookupOk && w.classification.Answered? && w.counterOk then 1 else 0)
  {
  }

  // ---- a monitoring cycle ----

  datatype Run = Run(db: Db, results: seq<ProcessResult>)

  /** The loop of `monitorComments`: each comment in turn, against the store as
      the previous ones left it, keeping the non-null results in order. The
      world answers per comment id. */
  function ProcessAll(db: Db, cs: seq<Comment>, world: string -> CommentWorld, cfg: Config): (r: Run)
    ensures |r.results| <= |cs|
    decreases |cs|
  {
    if cs == [] then Run(db, [])
    else
      var step := ProcessComment(db, cs[0], world(cs[0].id), cfg);
      var rest := ProcessAll(step.db, cs[1..], world, cfg);
      Run(rest.db, (if step.result.Some? then [step.result.value] else []) + rest.results)
  }

  function CommentsOf(rs: seq<ProcessResult>): (r: seq<Comment>)
    ensures |r| == |rs|
    ensures forall i :: 0 <= i < |rs| ==> r[i] == rs[i].comment
  {
    seq(|rs|, i requires 0 <= i < |rs| => rs[i].comment)
  }

  /** `xs` is `ys` with some elements left out. */
  predicate IsSubsequence<T(==)>(xs: seq<T>, ys: seq<T>)
    decreases |ys|
  {
    if xs == [] then true
    else if ys == [] then false
    else if xs[0] == ys[0] then IsSubsequence(xs[1..], ys[1..])
    else IsSubsequence(xs, ys[1..])
  }

  /** Putting an element in front of the longer sequence keeps a subsequence one. */
  lemma {:induction false} SubsequenceSkip<T>(xs: seq<T>, y: T, ys: seq<T>)
    requires IsSubsequence(xs, ys)
    ensures IsSubsequence(xs, [y] + ys)
    decreases |ys|, 1
  {
    assert ([y] + ys)[1..] == ys;
    if xs != [] && xs[0] == y {
      SubsequenceTail(xs, ys);
    }
  }

  /** Dropping the first element of a subsequence keeps it one. */
  lemma {:induction false} SubsequenceTail<T>(xs: seq<T>, ys: seq<T>)
    requires xs != [] && IsSubsequence(xs, ys)
    ensures IsSubsequence(xs[1..], ys)
    decreases |ys|, 0
  {
    assert ys == [ys[0]] + ys[1..];
    if xs[0] == ys[0] {
      SubsequenceSkip(xs[1..], ys[0], ys[1..]);
    } else {
      SubsequenceTail(xs, ys[1..]);
      SubsequenceSkip(xs[1..], ys[0], ys[1..]);
    }
  }

  /** The ids of the comments whose processing in `cs` ends with a record. */
  function PersistedIds(cs: seq<Comment>, world: string -> CommentWorld, cfg: Config): set<string> {
    set c | c in cs && Persists(c, world(c.id), cfg) :: c.id
  }

  /** The loop keeps every record under its own id and leaves every record
      that existed before it as it was. */
  lemma {:induction false} ProcessAllPreserves(db: Db, cs: seq<Comment>, world: string -> CommentWorld, cfg: Config)
    requires KeyedById(db.records)
    ensures var r := ProcessAll(db, cs, world, cfg);
      && KeyedById(r.db.records)
      && forall k :: k in db.records ==> k in r.db.records && r.db.records[k] == db.records[k]
    decreases |cs|
  {
    if cs != [] {
      var step := ProcessComment(db, cs[0], world(cs[0].id), cfg);
      ProcessCommentKeyed(db, cs[0], world(cs[0].id), cfg);
      ProcessAllPreserves(step.db, cs[1..], world, cfg);
    }
  }

  /** The ids the loop adds are exactly those of the comments that persist. */
  lemma {:induction false} ProcessAllKeys(db: Db, cs: seq<Comment>, world: string -> CommentWorld, cfg: Config)
    ensures ProcessAll(db, cs, world, cfg).db.records.Keys == db.records.Keys + PersistedIds(cs, world, cfg)
    decreases |cs|
  {
    if cs == [] {
      assert PersistedIds(cs, world, cfg) == {};
    } else {
      var c := cs[0];
      var step := ProcessComment(db, c, world(c.id), cfg);
      StepKeys(db, c, world(c.id), cfg);
      ProcessAllKeys(step.db, cs[1..], world, cfg);
      PersistedIdsCons(cs, world, cfg);
    }
  }

  /** The ids after one step: the comment's id is added exactly when it persists. */
  lemma StepKeys(db: Db, c: Comment, w: CommentWorld, cfg: Config)
    ensures ProcessComment(db, c, w, cfg).db.records.Keys ==
      db.records.Keys + (if Persists(c, w, cfg) then {c.id} else {})
  {
  }

  lemma PersistedIdsCons(cs: seq<Comment>, world: string -> CommentWorld, cfg: Config)
    requires cs != []
    ensures PersistedIds(cs, world, cfg) ==
      (if Persists(cs[0], world(cs[0].id), cfg) then {cs[0].id} else {}) + PersistedIds(cs[1..], world, cfg)
  {
    assert forall x :: x in cs <==> x == cs[0] || x in cs[1..];
  }

  /** One record is added per reported result. */
  lemma {:induction false} ProcessAllSize(db: Db, cs: seq<Comment>, world: string -> CommentWorld, cfg: Config)
    ensures |ProcessAll(db, cs, world, cfg).db.records| == |db.records| + |ProcessAll(db, cs, world, cfg).results|
    decreases |cs|
  {
    if cs != [] {
      var c := cs[0];
      var step := ProcessComment(db, c, world(c.id), cfg);
      ProcessAllSize(step.db, cs[1..], world, cfg);
      StepSize(db, c, world(c.id), cfg);
    }
  }

  /** One step adds a record exactly when it reports a result. */
  lemma StepSize(db: Db, c: Comment, w: CommentWorld, cfg: Config)
    ensures var step := ProcessComment(db, c, w, cfg);
      |step.db.records| == |db.records| + (if step.result.Some? then 1 else 0)
  {
    var step := ProcessComment(db, c, w, cfg);
    if step.result.Some? {
      assert step.db.records.Keys == db.records.Keys + {c.id};
      assert |step.db.records.Keys| == |db.records.Keys| + 1;
    }
  }

  /** The results follow the order of the input comments. */
  lemma {:induction false} ProcessAllInOrder(db: Db, cs: seq<Comment>, world: string -> CommentWorld, cfg: Config)
    ensures IsSubsequence(CommentsOf(ProcessAll(db, cs, world, cfg).results), cs)
    decreases |cs|
  {
    if cs != [] {
      var c := cs[0];
      var step := ProcessComment(db, c, world(c.id), cfg);
      var rest := ProcessAll(step.db, cs[1..], world, cfg);
      var tail := CommentsOf(rest.results);
      ProcessAllInOrder(step.db, cs[1..], world, cfg);
      assert cs == [c] + cs[1..];
      if step.result.Some? {
        CommentsOfCons(step.result.value, rest.results);
        assert ([c] + tail)[1..] == tail;
      } else {
        assert [] + rest.results == rest.results;
        SubsequenceSkip(tail, c, cs[1..]);
      }
    }
  }

  lemma CommentsOfCons(x: ProcessResult, rs: seq<ProcessResult>)
    ensures CommentsOf([x] + rs) == [x.comment] + CommentsOf(rs)
  {
  }

  /** The usage counter grows by at most one per comment. */
  lemma {:induction false} ProcessAllCalls(db: Db, cs: seq<Comment>, world: string -> CommentWorld, cfg: Config)
    ensures ApiCounter.CallCount(ProcessAll(db, cs, world, cfg).db.counters) <= ApiCounter.CallCount(db.counters) + |cs|
    ensures ApiCounter.CallCount(db.counters) <= ApiCounter.CallCount(ProcessAll(db, cs, world, cfg).db.counters)
    decreases |cs|
  {
    if cs != [] {
      var step := ProcessComment(db, cs[0], world(cs[0].id), cfg);
      ProcessAllCalls(step.db, cs[1..], world, cfg);
    }
  }

  /** The comments the loop sends to the classifier, in order: those whose
      lookup succeeds and that have no record when their turn comes. */
  function Classified(db: Db, cs: seq<Comment>, world: string -> CommentWorld, cfg: Config): (r: seq<Comment>)
    ensures |r| <= |cs|
    ensures forall x :: x in r ==> x in cs && x.id !in db.records
    decreases |cs|
  {
    if cs == [] then []
    else
      var c := cs[0];
      var step := ProcessComment(db, c, world(c.id), cfg);
      (if world(c.id).lookupOk && c.id !in db.records then [c] else []) + Classified(step.db, cs[1..], world, cfg)
  }

  /** The usage counter grows only for comments sent to the classifier. */
  lemma {:induction false} ClassifiedBoundsCalls(db: Db, cs: seq<Comment>, world: string -> CommentWorld, cfg: Config)
    ensures ApiCounter.CallCount(ProcessAll(db, cs, world, cfg).db.counters) <=
      ApiCounter.CallCount(db.counters) + |Classified(db, cs, world, cfg)|
    decreases |cs|
  {
    if cs != [] {
      var step := ProcessComment(db, cs[0], world(cs[0].id), cfg);
      ClassifiedBoundsCalls(step.db, cs[1..], world, cfg);
    }
  }

  /** When every comment already has a record, the loop changes nothing at
      all, whatever the outside world answers: no result, no record, no
      counter increment, and no comment sent to the classifier. */
  lemma {:induction false} AllRecordedUnchanged(db: Db, cs: seq<Comment>, world: string -> CommentWorld, cfg: Config)
    requires forall c :: c in cs ==> c.id in db.records
    ensures ProcessAll(db, cs, world, cfg) == Run(db, [])
    ensures Classified(db, cs, world, cfg) == []
    decreases |cs|
  {
    if cs != [] {
      assert cs[0] in cs;
      assert forall x :: x in cs[1..] ==> x in cs;
      AllRecordedUnchanged(db, cs[1..], world, cfg);
    }
  }

  /** When every comment that would persist already has a record, the loop
      reports nothing and inserts no record (the usage counter may still grow
      for comments that are classified and then fail to persist again). */
  lemma {:induction false} ProcessAllNothingNew(db: Db, cs: seq<Comment>, world: string -> CommentWorld, cfg: Config)
    requires forall c :: c in cs && Persists(c, world(c.id), cfg) ==> c.id in db.records
    ensures ProcessAll(db, cs, world, cfg).results == []
    ensures ProcessAll(db, cs, world, cfg).db.records == db.records
    decreases |cs|
  {
    if cs != [] {
      var c := cs[0];
      var step := ProcessComment(db, c, world(c.id), cfg);
      assert step.result.None?;
      assert forall x :: x in cs[1..] ==> x in cs;
      ProcessAllNothingNew(step.db, cs[1..], world, cfg);
    }
  }

  /** Running the loop a second time over the same comments, with the outside
      world answering as before, reports nothing and inserts no record; the
      only comments sent to the classifier again are those the first run
      failed to record, so when it recorded them all the second run changes
      nothing. */
  lemma RerunAddsNothing(db: Db, cs: seq<Comment>, world: string -> CommentWorld, cfg: Config)
    ensures var first := ProcessAll(db, cs, world, cfg);
      var second := ProcessAll(first.db, cs, world, cfg);
      && second.results == [] && second.db.records == first.db.records
      && (forall c :: c in Classified(first.db, cs, world, cfg) ==> c.id !in first.db.records)
      && ((forall c :: c in cs ==> c.id in first.db.records) ==>
            second == Run(first.db, []) && Classified(first.db, cs, world, cfg) == [])
  {
    var first := ProcessAll(db, cs, world, cfg);
    ProcessAllKeys(db, cs, world, cfg);
    forall c | c in cs && Persists(c, world(c.id), cfg)
      ensures c.id in first.db.records
    {
      assert c.id in PersistedIds(cs, world, cfg);
    }
    ProcessAllNothingNew(first.db, cs, world, cfg);
    if forall c :: c in cs ==> c.id in first.db.records {
      AllRecordedUnchanged(first.db, cs, world, cfg);
    }
  }

  datatype Cycle = Cycle(db: Db, results: Option<seq<ProcessResult>>)

  /** `monitorComments`: the recent comments of the last hour, each processed
      in turn. No result list ("undefined") when the comments cannot be fetched
      or there are none; the per-comment steps never fail the cycle. */
  function MonitorComments(db: Db, p: Platform, world: string -> CommentWorld, cfg: Config): (r: Cycle)
    ensures r.results.None? ==> r.db == db
    ensures r.results.Some? ==> var recent := RecentComments(p, MonitorLookbackHours, cfg.now);
      recent.Some? && recent.value != [] && |r.results.value| <= |recent.value|
  {
    match RecentComments(p, MonitorLookbackHours, cfg.now)
    case None => Cycle(db, None)
    case Some(cs) =>
      if |cs| == 0 then Cycle(db, None)
      else
        var run := ProcessAll(db, cs, world, cfg);
        Cycle(run.db, Some(run.results))
  }

  /** A cycle writes nothing when it has no result list; otherwise it adds one
      record per reported result, and each reported comment is one of the
      recent comments (published within the last hour, see
      `RecentCommentsMembers`) that had no record before. */
  lemma MonitorCommentsOutcome(db: Db, p: Platform, world: string -> CommentWorld, cfg: Config)
    requires KeyedById(db.records)
    ensures var r := MonitorComments(db, p, world, cfg);
      var recent := RecentComments(p, MonitorLookbackHours, cfg.now);
      && (r.results.None? <==> recent.None? || recent.value == [])
      && (r.results.None? ==> r.db == db)
      && (r.results.Some? ==>
            && r.db.records.Keys == db.records.Keys + PersistedIds(recent.value, world, cfg)
            && IsSubsequence(CommentsOf(r.results.value), recent.value)
            && |r.db.records| == |db.records| + |r.results.value|
            && (forall k :: k in db.records ==> k in r.db.records && r.db.records[k] == db.records[k])
            && forall res :: res in r.results.value ==>
                 && res.comment in recent.value
                 && res.comment.id !in db.records
                 && res.comment.id in r.db.records
                 && res.comment.publishedAt > cfg.now - MonitorLookbackHours * MsPerHour)
  {
    var recent := RecentComments(p, MonitorLookbackHours, cfg.now);
    if recent.Some? && recent.value != [] {
      var cs := recent.value;
      var cutoff := cfg.now - MonitorLookbackHours * MsPerHour;
      ProcessAllPreserves(db, cs, world, cfg);
      ProcessAllSize(db, cs, world, cfg);
      ProcessAllKeys(db, cs, world, cfg);
      ProcessAllInOrder(db, cs, world, cfg);
      var run := ProcessAll(db, cs, world, cfg);
      forall res | res in run.results
        ensures res.comment in cs
        ensures res.comment.id !in db.records && res.comment.id in run.db.records
        ensures res.comment.publishedAt > cutoff
      {
        ResultInRun(db, cs, world, cfg, res);
        RecentCommentIsRecent(p, MonitorLookbackHours, cfg.now, res.comment);
      }
    }
  }

  /** Each reported result is about a comment of the input that had no record
      before the loop and has one after it. */
  lemma {:induction false} ResultInRun(db: Db, cs: seq<Comment>, world: string -> CommentWorld, cfg: Config, res: ProcessResult)
    requires res in ProcessAll(db, cs, world, cfg).results
    ensures res.comment in cs
    ensures res.comment.id !in db.records
    ensures res.comment.id in ProcessAll(db, cs, world, cfg).db.records
    decreases |cs|
  {
    var c := cs[0];
    var step := ProcessComment(db, c, world(c.id), cfg);
    var rest := ProcessAll(step.db, cs[1..], world, cfg);
    RecordsOnlyGrow(step.db, cs[1..], world, cfg);
    if step.result.Some? && res == step.result.value {
    } else {
      assert res in rest.results;
      ResultInRun(step.db, cs[1..], world, cfg, res);
    }
  }

  /** No record is ever removed by the loop. */
  lemma {:induction false} RecordsOnlyGrow(db: Db, cs: seq<Comment>, world: string -> CommentWorld, cfg: Config)
    ensures db.records.Keys <= ProcessAll(db, cs, world, cfg).db.records.Keys
    decreases |cs|
  {
    if cs != [] {
      var step := ProcessComment(db, cs[0], world(cs[0].id), cfg);
      RecordsOnlyGrow(step.db, cs[1..], world, cfg);
    }
  }
}

=== FILE: results.dfy ===
/** Failure-carrying wrappers shared by the whole model: a value that may be
    missing (a JavaScript `null`/`undefined`) and an outcome that may be an error. */
module Results {

  datatype Option<+T> = None | Some(value: T) {

    /** The value, or `default` when there is none (JavaScript's `x || default`
        for values that are never falsy when present). */
    function GetOr(default: T): T {
      match this
      case Some(v) => v
      case None => default
    }
  }

  datatype Result<+T, +E> = Success(value: T) | Failure(error: E)
}

=== FILE: sentiment.dfy ===
/** The classifier side of the sentiment service: the category labels, the
    auto-reply policy, the tone of the reply prompt and the two calls to the
    generative-language endpoint, each of which degrades to a fixed value
    instead of failing. */
module Sentiment {
  import opened Results
  import ApiCounter

  const PositiveName := "positive"
  const NegativeName := "negative"
  const NeutralName := "neutral"

  /** Above this confidence a positive comment is answered. */
  const PositiveConfidenceFloor: real := 0.6
  /** At or above this toxicity a negative comment is not answered, and above
      it the reply prompt turns de-escalating. */
  const ToxicityCeiling: real := 0.7

  /** The category of a classification. The classifier is a language model, so
      it may answer with any word; everything else is `Other`. */
  datatype Label = Positive | Negative | Neutral | Other(name: string)

  /** The label a word names; `Other` never holds one of the three names. */
  function LabelOf(s: string): Label {
    if s == PositiveName then Positive
    else if s == NegativeName then Negative
    else if s == NeutralName then Neutral
    else Other(s)
  }

  function LabelName(l: Label): string {
    match l
    case Positive => PositiveName
    case Negative => NegativeName
    case Neutral => NeutralName
    case Other(s) => s
  }

  /** Reading a word as a label loses nothing. */
  lemma LabelNameOfLabelOf(s: string)
    ensures LabelName(LabelOf(s)) == s
  {
  }

  /** A classification as parsed from the classifier's JSON answer and as
      stored in a comment record. */
  datatype Sentiment = Sentiment(
    category: string,
    confidence: real,
    emotions: seq<string>,
    toxicity: real,
    summary: string)

  /** The result returned whenever classification fails. */
  const FailedAnalysis := Sentiment(NeutralName, 0.5, [], 0.0, "Analysis failed")

  /** The auto-reply policy. The confidence threshold setting is read by the
      source but plays no part in the decision. */
  function ShouldAutoReply(s: Sentiment, threshold: string): (b: bool)
    ensures b <==>
      || (s.category == PositiveName && s.confidence > PositiveConfidenceFloor)
      || (s.category == NegativeName && s.toxicity < ToxicityCeiling)
      || s.category == NeutralName
  {
    match LabelOf(s.category)
    case Positive => s.confidence > PositiveConfidenceFloor
    case Negative => s.toxicity < ToxicityCeiling
    case Neutral => true
    case Other(_) => false
  }

  /** Changing the threshold setting never changes the decision. */
  lemma ThresholdIgnored(s: Sentiment, t1: string, t2: string)
    ensures ShouldAutoReply(s, t1) == ShouldAutoReply(s, t2)
  {
  }

  /** Labels outside the three categories are never answered, whatever the scores. */
  lemma OtherLabelsNeverReply(s: Sentiment, threshold: string)
    requires LabelOf(s.category).Other?
    ensures !ShouldAutoReply(s, threshold)
  {
  }

  /** The tone the reply prompt asks for. */
  datatype Tone = Appreciative | Deescalating | Helpful | Friendly

  function ToneFor(s: Sentiment): (t: Tone)
    ensures t == Appreciative <==> s.category == PositiveName
    ensures t == Deescalating <==> s.category == NegativeName && s.toxicity > ToxicityCeiling
    ensures t == Helpful <==> s.category == NegativeName && s.toxicity <= ToxicityCeiling
    ensures t == Friendly <==> s.category != PositiveName && s.category != NegativeName
  {
    match LabelOf(s.category)
    case Positive => Appreciative
    case Negative => if s.toxicity > ToxicityCeiling then Deescalating else Helpful
    case _ => Friendly
  }

  /** A comment that the policy answers never gets the de-escalating prompt,
      and a negative comment whose toxicity sits exactly on the ceiling is
      neither answered nor de-escalated. */
  lemma AnsweredNeverDeescalated(s: Sentiment, threshold: string)
    ensures ShouldAutoReply(s, threshold) ==> ToneFor(s) != Deescalating
    ensures s.category == NegativeName && s.toxicity == ToxicityCeiling ==>
      !ShouldAutoReply(s, threshold) && ToneFor(s) == Helpful
  {
  }

  /** The words every tone instruction starts with. */
  const InstructionLead := "Generate a "

  /** What follows the lead in each tone's instruction. */
  function ToneWords(t: Tone): string {
    match t
    case Appreciative => "warm, appreciative reply to: "
    case Deescalating => "professional, de-escalating reply to: "
    case Helpful => "helpful, understanding reply to: "
    case Friendly => "friendly, engaging reply to: "
  }

  /** The instruction that opens a reply prompt of tone `t`. */
  function ToneInstruction(t: Tone): string {
    InstructionLead + ToneWords(t)
  }

  /** The instruction appended to every reply prompt. */
  const LengthInstruction := "\n\nLimit to 200 characters, friendly, professional, no quotes."

  /** The prompt sent to ask for a reply to a comment whose text is `text`. */
  function ReplyPrompt(text: string, s: Sentiment): (p: string)
    ensures ToneInstruction(ToneFor(s)) <= p
    ensures |p| == |ToneInstruction(ToneFor(s))| + |text| + 2 + |LengthInstruction|
    ensures p[|p| - |LengthInstruction|..] == LengthInstruction
    ensures p[|ToneInstruction(ToneFor(s))|..|p| - |LengthInstruction|] == "\"" + text + "\""
  {
    var lead := ToneInstruction(ToneFor(s));
    var quoted := "\"" + text + "\"";
    assert lead + "\"" + text + "\"" == lead + quoted;
    lead + quoted + LengthInstruction
  }

  /** The letter at which the four instructions part, right after the lead. */
  function ToneLetter(t: Tone): char {
    match t
    case Appreciative => 'w'
    case Deescalating => 'p'
    case Helpful => 'h'
    case Friendly => 'f'
  }

  lemma ToneLetterAt(t: Tone)
    ensures |ToneInstruction(t)| > |InstructionLead| && ToneInstruction(t)[|InstructionLead|] == ToneLetter(t)
  {
    assert ToneInstruction(t)[|InstructionLead|] == ToneWords(t)[0];
  }

  /** The prompt gives away both the tone and the comment text: two prompts are
      equal only when they ask for the same tone about the same text. */
  lemma ReplyPromptDetermines(text1: string, s1: Sentiment, text2: string, s2: Sentiment)
    requires ReplyPrompt(text1, s1) == ReplyPrompt(text2, s2)
    ensures ToneFor(s1) == ToneFor(s2)
    ensures text1 == text2
  {
    var p := ReplyPrompt(text1, s1);
    var t1, t2 := ToneFor(s1), ToneFor(s2);
    ToneLetterAt(t1);
    ToneLetterAt(t2);
    assert p[|InstructionLead|] == ToneLetter(t1) by {
      assert ToneInstruction(t1) <= p;
    }
    assert p[|InstructionLead|] == ToneLetter(t2) by {
      assert ToneInstruction(t2) <= p;
    }
    var quoted := p[|ToneInstruction(t1)|..|p| - |LengthInstruction|];
    assert quoted == "\"" + text1 + "\"" && quoted == "\"" + text2 + "\"";
    assert text1 == quoted[1..|quoted| - 1];
    assert text2 == quoted[1..|quoted| - 1];
  }

  /** What the endpoint answered to a classification request. `Unanswered`
      covers a transport failure, a non-OK status and a body that is not JSON;
      `Answered` an OK response, with the classification when its text parses. */
  datatype Classification = Unanswered | Answered(parsed: Option<Sentiment>)

  datatype Analysis = Analysis(sentiment: Sentiment, counters: ApiCounter.Counters)

  /** Classify a comment. Never fails: anything but a parsed answer yields the
      neutral fallback. The usage counter is incremented once for every OK
      response, before its text is parsed; `counterOk` is the outcome of that
      database call. */
  function AnalyzeSentiment(c: Classification, counterOk: bool, counters: ApiCounter.Counters): (r: Analysis)
    ensures c.Answered? && c.parsed.Some? ==> r.sentiment == c.parsed.value
    ensures !(c.Answered? && c.parsed.Some?) ==> r.sentiment == FailedAnalysis
    ensures ApiCounter.CallCount(r.counters) ==
      ApiCounter.CallCount(counters) + (if c.Answered? && counterOk then 1 else 0)
    ensures c.Unanswered? ==> r.counters == counters
  {
    match c
    case Unanswered => Analysis(FailedAnalysis, counters)
    case Answered(parsed) =>
      Analysis(parsed.GetOr(FailedAnalysis), ApiCounter.Increment(counters, counterOk))
  }

  /** What the endpoint answered to a reply-generation request: nothing usable
      (transport failure, non-OK status), or the trimmed candidate text, empty
      when the answer held none. */
  datatype Generation = GenerationFailed | Generated(trimmed: string)

  const FallbackReply := "Thank you for your comment! \U{1F60A}"

  /** Ask for a reply. `answer` is the endpoint, a function of the prompt. */
  function GenerateReply(text: string, s: Sentiment, answer: string -> Generation): (r: string)
    ensures r != ""
    ensures r == FallbackReply || answer(ReplyPrompt(text, s)) == Generated(r)
    ensures answer(ReplyPrompt(text, s)).GenerationFailed? ==> r == FallbackReply
    ensures answer(ReplyPrompt(text, s)).Generated? && answer(ReplyPrompt(text, s)).trimmed != "" ==>
      r == answer(ReplyPrompt(text, s)).trimmed
  {
    match answer(ReplyPrompt(text, s))
    case GenerationFailed => FallbackReply
    case Generated(t) => if t == "" then FallbackReply else t
  }
}

=== FILE: youtube.dfy ===
/** The video-platform side: how the platform's answers become videos and
    comments, and how the recent comments of a channel are selected. The
    platform itself is an input (`Platform`): what each list call would answer. */
module Youtube {
  import opened Results

  const MsPerHour: int := 3600000

  /** `getRecentComments` looks at this many uploads ... */
  const VideosScanned: nat := 10
  /** ... and at this many comment threads of each. */
  const ThreadsPerVideo: nat := 50

  const DisabledStatus := "disabled"

  datatype ChannelInfo = ChannelInfo(id: string, title: string, uploadsPlaylistId: string)

  /** A video as the platform describes it; a statistic it leaves out is `None`. */
  datatype RawVideo = RawVideo(
    id: string,
    title: string,
    description: string,
    thumbnail: string,
    publishedAt: int,
    viewCount: Option<nat>,
    likeCount: Option<nat>,
    commentCount: Option<nat>,
    commentStatus: string)

  datatype Video = Video(
    id: string,
    title: string,
    description: string,
    thumbnail: string,
    publishedAt: int,
    viewCount: nat,
    likeCount: nat,
    commentCount: nat,
    commentStatus: string)

  /** The part of a comment the platform describes in its snippet. */
  datatype Snippet = Snippet(
    text: string,
    author: string,
    authorProfileImageUrl: string,
    publishedAt: int,
    likeCount: int)

  datatype RawReply = RawReply(id: string, snippet: Snippet)

  /** A comment thread: the top-level comment, its reply total when given, and
      its nested replies when given. */
  datatype RawThread = RawThread(
    id: string,
    topLevel: Snippet,
    totalReplyCount: Option<nat>,
    replies: Option<seq<RawReply>>)

  datatype Reply = Reply(
    id: string,
    text: string,
    author: string,
    authorProfileImageUrl: string,
    publishedAt: int,
    likeCount: int)

  /** The video a comment was found under. */
  datatype VideoTag = VideoTag(videoId: string, videoTitle: string)

  /** A top-level comment; `video` is filled in by the recent-comment selection. */
  datatype Comment = Comment(
    id: string,
    text: string,
    author: string,
    authorProfileImageUrl: string,
    publishedAt: int,
    likeCount: int,
    replyCount: nat,
    replies: seq<Reply>,
    video: Option<VideoTag>)

  /** What the platform would answer: the authenticated channel (`None`: no
      channel, or the call fails), the uploads playlist (`None`: the playlist or
      video listing fails), and, per video id, the comment threads (`None`: the
      listing fails). Each list is in the platform's own order. */
  datatype Platform = Platform(
    channel: Option<ChannelInfo>,
    uploads: Option<seq<RawVideo>>,
    threads: string -> Option<seq<RawThread>>)

  function Min(a: nat, b: nat): nat {
    if a <= b then a else b
  }

  function ToVideo(v: RawVideo): Video {
    Video(v.id, v.title, v.description, v.thumbnail, v.publishedAt,
          v.viewCount.GetOr(0), v.likeCount.GetOr(0), v.commentCount.GetOr(0), v.commentStatus)
  }

  /** `getVideos(maxResults)`: the first `maxResults` uploads, each statistic
      that is missing read as 0. Fails when the channel or the listing fails. */
  function GetVideos(p: Platform, maxResults: nat): (r: Option<seq<Video>>)
    ensures r.Some? <==> p.channel.Some? && p.uploads.Some?
    ensures r.Some? ==> |r.value| == Min(maxResults, |p.uploads.value|)
    ensures r.Some? ==> forall i :: 0 <= i < |r.value| ==>
      var raw := p.uploads.value[i];
      && r.value[i].id == raw.id
      && r.value[i].title == raw.title
      && r.value[i].description == raw.description
      && r.value[i].thumbnail == raw.thumbnail
      && r.value[i].publishedAt == raw.publishedAt
      && r.value[i].commentStatus == raw.commentStatus
      && (raw.viewCount.Some? ==> r.value[i].viewCount == raw.viewCount.value)
      && (raw.viewCount.None? ==> r.value[i].viewCount == 0)
      && (raw.likeCount.Some? ==> r.value[i].likeCount == raw.likeCount.value)
      && (raw.likeCount.None? ==> r.value[i].likeCount == 0)
      && (raw.commentCount.Some? ==> r.value[i].commentCount == raw.commentCount.value)
      && (raw.commentCount.None? ==> r.value[i].commentCount == 0)
  {
    if p.channel.None? || p.uploads.None? then None
    else
      var listed := p.uploads.value[..Min(maxResults, |p.uploads.value|)];
      Some(seq(|listed|, i requires 0 <= i < |listed| => ToVideo(listed[i])))
  }

  /** A reply keeps its id and every field of its snippet. */
  function ToReply(r: RawReply): (x: Reply)
    ensures x.id == r.id
    ensures Snippet(x.text, x.author, x.authorProfileImageUrl, x.publishedAt, x.likeCount) == r.snippet
  {
    Reply(r.id, r.snippet.text, r.snippet.author, r.snippet.authorProfileImageUrl,
          r.snippet.publishedAt, r.snippet.likeCount)
  }

  /** A thread becomes its top-level comment, carrying the thread id, every
      field of the top-level snippet, a reply count of 0 when none is given,
      and its replies mapped in order (none when none are given). */
  function ToComment(t: RawThread): (c: Comment)
    ensures c.id == t.id
    ensures Snippet(c.text, c.author, c.authorProfileImageUrl, c.publishedAt, c.likeCount) == t.topLevel
    ensures t.totalReplyCount.None? ==> c.replyCount == 0
    ensures t.totalReplyCount.Some? ==> c.replyCount == t.totalReplyCount.value
    ensures t.replies.None? ==> c.replies == []
    ensures t.replies.Some? ==> |c.replies| == |t.replies.value|
    ensures t.replies.Some? ==> forall i :: 0 <= i < |c.replies| ==> c.replies[i] == ToReply(t.replies.value[i])
    ensures c.video.None?
  {
    var replies :=
      if t.replies.Some? then
        seq(|t.replies.value|, i requires 0 <= i < |t.replies.value| => ToReply(t.replies.value[i]))
      else [];
    Comment(t.id, t.topLevel.text, t.topLevel.author, t.topLevel.authorProfileImageUrl,
            t.topLevel.publishedAt, t.topLevel.likeCount, t.totalReplyCount.GetOr(0), replies, None)
  }

  /** `getVideoComments(videoId, maxResults)`: the first `maxResults` threads. */
  function GetVideoComments(p: Platform, videoId: string, maxResults: nat): (r: Option<seq<Comment>>)
    ensures r.Some? <==> p.threads(videoId).Some?
    ensures r.Some? ==> |r.value| == Min(maxResults, |p.threads(videoId).value|)
    ensures r.Some? ==> forall i :: 0 <= i < |r.value| ==> r.value[i] == ToComment(p.threads(videoId).value[i])
  {
    match p.threads(videoId)
    case None => None
    case Some(ts) =>
      var listed := ts[..Min(maxResults, |ts|)];
      Some(seq(|listed|, i requires 0 <= i < |listed| => ToComment(listed[i])))
  }

  /** A video whose comments are worth listing. */
  predicate Eligible(v: Video) {
    v.commentStatus != DisabledStatus && v.commentCount != 0
  }

  /** The comment with its video recorded on it, nothing else changed. */
  function Annotate(c: Comment, v: Video): (r: Comment)
    ensures r.video == Some(VideoTag(v.id, v.title))
    ensures r.(video := c.video) == c
  {
    c.(video := Some(VideoTag(v.id, v.title)))
  }

  /** The comments of `cs` published strictly after `cutoff`, annotated with `v`, in order. */
  function RecentOf(cs: seq<Comment>, v: Video, cutoff: int): (r: seq<Comment>)
    ensures |r| <= |cs|
    ensures forall c :: c in r ==> c.publishedAt > cutoff && c.video == Some(VideoTag(v.id, v.title))
  {
    if cs == [] then []
    else
      (if cs[0].publishedAt > cutoff then [Annotate(cs[0], v)] else []) + RecentOf(cs[1..], v, cutoff)
  }

  lemma {:induction false} RecentOfMember(cs: seq<Comment>, v: Video, cutoff: int, c: Comment)
    ensures c in RecentOf(cs, v, cutoff) <==>
      exists x :: x in cs && x.publishedAt > cutoff && c == Annotate(x, v)
  {
    if cs != [] {
      RecentOfMember(cs[1..], v, cutoff, c);
      assert forall x :: x in cs <==> x == cs[0] || x in cs[1..];
    }
  }

  /** What one video contributes: nothing when it is not eligible or its
      comments cannot be listed, else its recent top-level comments. */
  function Contribution(p: Platform, v: Video, cutoff: int): (r: seq<Comment>)
    ensures |r| <= ThreadsPerVideo
  {
    if !Eligible(v) then []
    else match GetVideoComments(p, v.id, ThreadsPerVideo)
      case None => []
      case Some(cs) => RecentOf(cs, v, cutoff)
  }

  /** The per-video contributions, concatenated in video order. */
  function Collect(p: Platform, vs: seq<Video>, cutoff: int): (r: seq<Comment>)
    ensures forall c :: c in r ==> c.publishedAt > cutoff && c.video.Some?
  {
    if vs == [] then [] else Contribution(p, vs[0], cutoff) + Collect(p, vs[1..], cutoff)
  }

  /** Collection distributes over the video list, so a video that contributes
      nothing (ineligible, or its listing failed) leaves the others' comments
      exactly as they would be without it. */
  lemma {:induction false} CollectAppend(p: Platform, a: seq<Video>, b: seq<Video>, cutoff: int)
    ensures Collect(p, a + b, cutoff) == Collect(p, a, cutoff) + Collect(p, b, cutoff)
  {
    if a == [] {
      assert a + b == b;
    } else {
      assert (a + b)[1..] == a[1..] + b;
      CollectAppend(p, a[1..], b, cutoff);
    }
  }

  /** At most 50 comments per video examined. */
  lemma {:induction false} CollectBound(p: Platform, vs: seq<Video>, cutoff: int)
    ensures |Collect(p, vs, cutoff)| <= ThreadsPerVideo * |vs|
  {
    if vs != [] {
      CollectBound(p, vs[1..], cutoff);
    }
  }

  /** A comment is a candidate of video `v` when `v` is eligible, its listing
      succeeds, and one of its first 50 threads was published after the cutoff
      and, annotated with `v`, is the comment. Nested replies never are. */
  ghost predicate CandidateOf(p: Platform, v: Video, cutoff: int, c: Comment) {
    && Eligible(v)
    && GetVideoComments(p, v.id, ThreadsPerVideo).Some?
    && exists x :: x in GetVideoComments(p, v.id, ThreadsPerVideo).value && x.publishedAt > cutoff && c == Annotate(x, v)
  }

  lemma ContributionMember(p: Platform, v: Video, cutoff: int, c: Comment)
    ensures c in Contribution(p, v, cutoff) <==> CandidateOf(p, v, cutoff, c)
  {
    if Eligible(v) && GetVideoComments(p, v.id, ThreadsPerVideo).Some? {
      RecentOfMember(GetVideoComments(p, v.id, ThreadsPerVideo).value, v, cutoff, c);
    }
  }

  lemma {:induction false} CollectMember(p: Platform, vs: seq<Video>, cutoff: int, c: Comment)
    ensures c in Collect(p, vs, cutoff) <==> exists v :: v in vs && CandidateOf(p, v, cutoff, c)
  {
    if vs != [] {
      CollectMember(p, vs[1..], cutoff, c);
      ContributionMember(p, vs[0], cutoff, c);
      assert Collect(p, vs, cutoff) == Contribution(p, vs[0], cutoff) + Collect(p, vs[1..], cutoff);
      assert forall v :: v in vs <==> v == vs[0] || v in vs[1..];
    }
  }

  // ---- ordering: the descending, stable sort by publication time ----

  predicate NewestFirst(s: seq<Comment>) {
    forall i, j :: 0 <= i < j < |s| ==> s[i].publishedAt >= s[j].publishedAt
  }

  /** Insert `c` before the first element not newer than it. */
  function InsertByTime(c: Comment, s: seq<Comment>): (r: seq<Comment>)
    ensures |r| == |s| + 1
  {
    if s == [] || c.publishedAt >= s[0].publishedAt then [c] + s
    else [s[0]] + InsertByTime(c, s[1..])
  }

  /** The comparator `b.publishedAt - a.publishedAt` under the stable array
      sort: newest first, ties kept in their original order. */
  function SortNewestFirst(s: seq<Comment>): (r: seq<Comment>)
    ensures |r| == |s|
  {
    if s == [] then [] else InsertByTime(s[0], SortNewestFirst(s[1..]))
  }

  /** A newest-first list stays so when an element at least as new as its head is put in front. */
  lemma PrependNewest(x: Comment, t: seq<Comment>)
    requires NewestFirst(t)
    requires t != [] ==> x.publishedAt >= t[0].publishedAt
    ensures NewestFirst([x] + t)
  {
    var s := [x] + t;
    forall i, j | 0 <= i < j < |s|
      ensures s[i].publishedAt >= s[j].publishedAt
    {
      if i == 0 {
        assert s[j] == t[j - 1];
        assert t[0].publishedAt >= t[j - 1].publishedAt;
      } else {
        assert s[i] == t[i - 1] && s[j] == t[j - 1];
      }
    }
  }

  /** The tail of a newest-first list is newest first. */
  lemma NewestFirstTail(s: seq<Comment>)
    requires s != [] && NewestFirst(s)
    ensures NewestFirst(s[1..])
  {
    var tail := s[1..];
    forall i, j | 0 <= i < j < |tail|
      ensures tail[i].publishedAt >= tail[j].publishedAt
    {
      assert tail[i] == s[i + 1] && tail[j] == s[j + 1];
    }
  }

  lemma {:induction false} InsertByTimeFacts(c: Comment, s: seq<Comment>)
    requires NewestFirst(s)
    ensures NewestFirst(InsertByTime(c, s))
    ensures multiset(InsertByTime(c, s)) == multiset(s) + multiset{c}
    ensures InsertByTime(c, s)[0] == c || (s != [] && InsertByTime(c, s)[0] == s[0])
  {
    if s == [] || c.publishedAt >= s[0].publishedAt {
      PrependNewest(c, s);
    } else {
      var tail := s[1..];
      NewestFirstTail(s);
      InsertByTimeFacts(c, tail);
      var t := InsertByTime(c, tail);
      assert t[0].publishedAt <= s[0].publishedAt by {
        if t[0] != c {
          assert tail != [] && t[0] == tail[0] == s[1];
        }
      }
      PrependNewest(s[0], t);
      assert InsertByTime(c, s) == [s[0]] + t;
      assert s == [s[0]] + tail;
    }
  }

  lemma {:induction false} SortNewestFirstFacts(s: seq<Comment>)
    ensures NewestFirst(SortNewestFirst(s))
    ensures multiset(SortNewestFirst(s)) == multiset(s)
  {
    if s != [] {
      SortNewestFirstFacts(s[1..]);
      InsertByTimeFacts(s[0], SortNewestFirst(s[1..]));
      assert s == [s[0]] + s[1..];
    }
  }

  /** The comments of `s` published at time `t`, in order. */
  function At(s: seq<Comment>, t: int): seq<Comment> {
    if s == [] then [] else (if s[0].publishedAt == t then [s[0]] else []) + At(s[1..], t)
  }

  lemma AtCons(x: Comment, s: seq<Comment>, t: int)
    ensures At([x] + s, t) == (if x.publishedAt == t then [x] else []) + At(s, t)
  {
    assert ([x] + s)[0] == x;
    assert ([x] + s)[1..] == s;
  }

  lemma {:induction false} InsertByTimeAt(c: Comment, s: seq<Comment>, t: int)
    ensures At(InsertByTime(c, s), t) == (if c.publishedAt == t then [c] else []) + At(s, t)
  {
    if s == [] || c.publishedAt >= s[0].publishedAt {
      AtCons(c, s, t);
    } else {
      var rest := InsertByTime(c, s[1..]);
      InsertByTimeAt(c, s[1..], t);
      AtCons(s[0], rest, t);
      AtCons(s[0], s[1..], t);
      assert s == [s[0]] + s[1..];
    }
  }

  /** Stability: comments published at the same instant keep their relative order. */
  lemma {:induction false} SortNewestFirstStable(s: seq<Comment>, t: int)
    ensures At(SortNewestFirst(s), t) == At(s, t)
  {
    if s != [] {
      SortNewestFirstStable(s[1..], t);
      InsertByTimeAt(s[0], SortNewestFirst(s[1..]), t);
    }
  }

  /** `getRecentComments(hours)`: the recent top-level comments of the first
      ten uploads, newest first. A failure to list the uploads fails the whole
      call; a failure to list one video's threads only drops that video. */
  function RecentComments(p: Platform, hours: int, now: int): (r: Option<seq<Comment>>)
    ensures r.Some? <==> GetVideos(p, VideosScanned).Some?
  {
    match GetVideos(p, VideosScanned)
    case None => None
    case Some(vs) => Some(SortNewestFirst(Collect(p, vs, now - hours * MsPerHour)))
  }

  /** The order the selection promises: newest first, ties in listing order,
      a permutation of the per-video survivors, at most 500 comments. */
  lemma RecentCommentsOrder(p: Platform, hours: int, now: int, t: int)
    requires RecentComments(p, hours, now).Some?
    ensures var r := RecentComments(p, hours, now).value;
      var survivors := Collect(p, GetVideos(p, VideosScanned).value, now - hours * MsPerHour);
      && NewestFirst(r)
      && multiset(r) == multiset(survivors)
      && At(r, t) == At(survivors, t)
      && |r| <= VideosScanned * ThreadsPerVideo
  {
    var vs := GetVideos(p, VideosScanned).value;
    var cutoff := now - hours * MsPerHour;
    var survivors := Collect(p, vs, cutoff);
    assert RecentComments(p, hours, now).value == SortNewestFirst(survivors);
    SortNewestFirstFacts(survivors);
    SortNewestFirstStable(survivors, t);
    CollectBound(p, vs, cutoff);
  }

  /** What the selection holds: a comment is selected iff it is a thread of an
      eligible scanned video, published strictly after `now - hours`,
      annotated with that video. */
  lemma RecentCommentsMembers(p: Platform, hours: int, now: int, c: Comment)
    requires RecentComments(p, hours, now).Some?
    ensures c in RecentComments(p, hours, now).value <==>
      exists v :: v in GetVideos(p, VideosScanned).value && CandidateOf(p, v, now - hours * MsPerHour, c)
  {
    var vs := GetVideos(p, VideosScanned).value;
    var cutoff := now - hours * MsPerHour;
    assert RecentComments(p, hours, now).value == SortNewestFirst(Collect(p, vs, cutoff));
    SortKeepsMembers(Collect(p, vs, cutoff), c);
    CollectMember(p, vs, cutoff, c);
  }

  /** Sorting neither adds nor drops a comment. */
  lemma SortKeepsMembers(s: seq<Comment>, c: Comment)
    ensures c in SortNewestFirst(s) <==> c in s
  {
    SortNewestFirstFacts(s);
    assert c in SortNewestFirst(s) <==> c in multiset(SortNewestFirst(s));
    assert c in s <==> c in multiset(s);
  }

  /** Every selected comment was published strictly after the cutoff. */
  lemma RecentCommentIsRecent(p: Platform, hours: int, now: int, c: Comment)
    requires RecentComments(p, hours, now).Some? && c in RecentComments(p, hours, now).value
    ensures c.publishedAt > now - hours * MsPerHour
  {
    var vs := GetVideos(p, VideosScanned).value;
    RecentCommentsMembers(p, hours, now, c);
    var v :| v in vs && CandidateOf(p, v, now - hours * MsPerHour, c);
    var x :| x in GetVideoComments(p, v.id, ThreadsPerVideo).value && x.publishedAt > now - hours * MsPerHour && c == Annotate(x, v);
  }
}
